=== FILE: README.md ===
# S3 Copy Artifact build step — a Dafny model

This project models the decision core of the Jenkins "S3 Copy Artifact" build step
(`hudson.plugins.s3.S3CopyArtifact`). The step copies the artifacts that an upstream
build uploaded to S3 into the workspace of the running build. It does this in six parts:

- resolves the configured project name, which may be parameterised and may carry a
  `/`-separated parameter filter, to a job;
- refuses jobs reached through a parameter unless every authenticated user may read them;
- selects a build and expands Maven aggregate and matrix builds into copy units;
- copies each unit and records the fingerprints linking source and destination builds;
- records the selected build number in the destination build's environment;
- keeps the stored project names correct when a job is renamed.

The host (jobs, filter validity, build selection, S3 profiles and the download itself)
is an immutable snapshot, `Host.World`. Its lookups are function-valued fields, so every
property holds for any host.

Modules, one per concern:

| file | module | models |
|---|---|---|
| `wrappers.dfy` | `Wrappers` | `Option` for Java's nullable references |
| `java_strings.dfy` | `JavaStrings` | `indexOf`, `startsWith`, `trim`, ASCII `toUpperCase`, `replaceAll("[^A-Z]+", "_")`, `Integer.toString` |
| `host.dfy` | `Host` | jobs, runs, build variants, S3 actions, download records, the host snapshot |
| `job_resolver.dfy` | `JobResolver` | `JobResolver` |
| `copy_config.dfy` | `CopyConfig` | the constructor, `isFlatten`, `isOptional` |
| `rename.dfy` | `Rename` | the name rewrite of `ListenerImpl.onRenamed` |
| `env_record.dfy` | `EnvRecord` | `EnvAction.add`, `EnvAction.buildEnvVars` |
| `fingerprints.dfy` | `Fingerprints` | fingerprint store, `FingerprintAction` summaries, the `name -> digest` map |
| `copy_unit.dfy` | `CopyUnit` | `perform(Run, AbstractBuild, ...)` |
| `copy_step.dfy` | `CopyStep` | `perform(AbstractBuild, Launcher, BuildListener)` |

Four behaviours of the code a reader may not expect; the model follows the code in each:

- A build without an S3 action makes its unit return `false` even when the copy is optional.
- An unresolved job fails the step whatever `optional` says.
- The optional gate is applied per unit, to that unit's own copied count, not to the
  total across units.
- A matrix build with no exact runs fails the step even when the copy is optional.

Apart from the approximations listed under "## Left out", the one place where the model
does not follow the code is the record loop of line 237. It throws for a source run that
is not an `AbstractBuild` once at least one record was downloaded (see "## Findings").
The step is modelled with the corrected loop; the unit as written is
`CopyUnit.PerformUnitAsWritten`, proved equal to the corrected unit on every other input.

## Model

| member | source | states |
|---|---|---|
| JavaStrings.IndexOf | src/main/java/hudson/plugins/s3/S3CopyArtifact.java:270 | the result is -1 exactly when the character is absent; otherwise it is the position of its first occurrence |
| JavaStrings.Trim | src/main/java/hudson/plugins/s3/S3CopyArtifact.java:109-110 | `trim()` keeps the middle piece of the string: only blanks (code at most U+0020) are removed, and only from either end; the result neither starts nor ends with a blank |
| JavaStrings.TrimEmptyIffBlank | src/main/java/hudson/plugins/s3/S3CopyArtifact.java:181 | a string trims to empty exactly when every character is blank |
| JavaStrings.TrimIdempotent | src/main/java/hudson/plugins/s3/S3CopyArtifact.java:109-110 | trimming a trimmed value changes nothing |
| JavaStrings.CollapseNonLetters | src/main/java/hudson/plugins/s3/S3CopyArtifact.java:384 | `replaceAll("[^A-Z]+", "_")` yields only `A`-`Z` and `_` and never two `_` in a row; it is empty only for the empty string and starts with `_` exactly when the input starts with a non-letter |
| JavaStrings.CollapseKeepsLetters | src/main/java/hudson/plugins/s3/S3CopyArtifact.java:384 | the replacement keeps every letter, in order, and adds none |
| JavaStrings.CollapseLastChar | src/main/java/hudson/plugins/s3/S3CopyArtifact.java:384 | the result ends with `_` exactly when the input ends with a non-letter |
| JavaStrings.NonLetterRunCollapses | src/main/java/hudson/plugins/s3/S3CopyArtifact.java:384 | a non-empty string without `A`-`Z` becomes exactly one `_` |
| JavaStrings.CollapseSplitsAfterLetter | src/main/java/hudson/plugins/s3/S3CopyArtifact.java:384 | a string ending in a letter and whatever follows it are replaced independently; with `NonLetterRunCollapses` this fixes the result for every input (`A1B` gives `A_B`) |
| JavaStrings.ToUpperAscii | src/main/java/hudson/plugins/s3/S3CopyArtifact.java:384 | `toUpperCase()` on ASCII: same length, each lower-case letter replaced by its upper-case letter and every other character kept, so no lower-case letter remains |
| JavaStrings.IntToDecimal | src/main/java/hudson/plugins/s3/S3CopyArtifact.java:385 | `Integer.toString` writes a canonical numeral: a `-` exactly for negatives, digits without leading zero, never `-0` |
| JavaStrings.CanonicalDecimalIsIntToDecimal | src/main/java/hudson/plugins/s3/S3CopyArtifact.java:385 | every canonical numeral is `Integer.toString` of its value, so the canonical form is unique |
| JavaStrings.IntToDecimalRoundTrip | src/main/java/hudson/plugins/s3/S3CopyArtifact.java:385 | `Integer.toString` of the build number reads back as the same number |
| JobResolver.Resolve | src/main/java/hudson/plugins/s3/S3CopyArtifact.java:265-282 | a name that is a job resolves to it with the match-all filter; an unresolved result always has the match-all filter; a parameter filter comes only with a job found by splitting at a `/` after the first character, and only when the filter is valid for that job |
| JobResolver.ResolveSplitsAtFirstSlash | src/main/java/hudson/plugins/s3/S3CopyArtifact.java:268-281 | for `p/q` that is not a job, with `p` non-empty and free of `/`: the result is `p`'s job with filter `q` exactly when `p` is a job and `q` is valid for it, and unresolved otherwise |
| JobResolver.ResolveWithoutSplitFails | src/main/java/hudson/plugins/s3/S3CopyArtifact.java:270-271 | a name that is not a job and has no `/` after index 0 never resolves |
| JobResolver.NoFallbackToPrefix | src/main/java/hudson/plugins/s3/S3CopyArtifact.java:273-279 | a job found through the split always carries the parameter filter; the bare prefix with the default filter is never returned |
| CopyConfig.StoredProjectName | src/main/java/hudson/plugins/s3/S3CopyArtifact.java:100-101 | a name with `$` is kept verbatim; a name without `$` is kept if it resolves to a job and cleared to `""` if not |
| CopyConfig.StoredProjectNameIdempotent | src/main/java/hudson/plugins/s3/S3CopyArtifact.java:100-101 | a stored name is stored again unchanged, whatever jobs exist |
| CopyConfig.New | src/main/java/hudson/plugins/s3/S3CopyArtifact.java:96-113 | the name is normalised as `StoredProjectName` says; a null selector becomes the default; filter and target are null-fixed and trimmed; both flags are stored as `StoredFlag` says (TRUE or null, never FALSE), so `isFlatten()` and `isOptional()` read back the arguments |
| CopyConfig.FixNullTrimIdempotent | src/main/java/hudson/plugins/s3/S3CopyArtifact.java:108-109 | null-fixing and trimming an already stored filter or target keeps it |
| CopyConfig.NewIsIdempotent | src/main/java/hudson/plugins/s3/S3CopyArtifact.java:100-112 | constructing again from the values a configuration reads back yields the same configuration |
| CopyConfig.StoredFlag | src/main/java/hudson/plugins/s3/S3CopyArtifact.java:111-112 | a flag is stored as TRUE when set and as null otherwise, never as FALSE |
| CopyConfig.FlagsReadTrueOnly | src/main/java/hudson/plugins/s3/S3CopyArtifact.java:131-137 | `isFlatten()` and `isOptional()` are true for a stored TRUE and false for a stored FALSE or null, each testing its own field the same way |
| Rename.Rewrite | src/main/java/hudson/plugins/s3/S3CopyArtifact.java:335-340 | a name that does not refer to the old job is unchanged; one that does is rewritten to refer to the new job, with the length changing by the difference of the two names |
| Rename.RewriteKeepsSuffix | src/main/java/hudson/plugins/s3/S3CopyArtifact.java:337-339 | `A/x` becomes `B/x`: the filter suffix is kept unchanged |
| Rename.RewriteIgnoresLongerNames | src/main/java/hudson/plugins/s3/S3CopyArtifact.java:335-340 | a name that extends the old name with anything but `/` (such as `AA/x` for `A`) is untouched |
| Rename.RewriteRoundTrip | src/main/java/hudson/plugins/s3/S3CopyArtifact.java:335-339 | renaming back restores every name that referred to the old job or did not refer to the new one |
| Rename.OnRenamedRoundTrip | src/main/java/hudson/plugins/s3/S3CopyArtifact.java:331-340 | renaming a job and renaming it back restores a stored build step whose name referred to the old job or not to the new one |
| Rename.OnRenamedOtherJob | src/main/java/hudson/plugins/s3/S3CopyArtifact.java:331-340 | a step whose name does not refer to the renamed job is left as it is |
| EnvRecord.ProjectPart | src/main/java/hudson/plugins/s3/S3CopyArtifact.java:381-382 | the part before the first `/` when that `/` is past index 0, a non-empty name free of `/`; otherwise the whole name |
| EnvRecord.KeySuffix | src/main/java/hudson/plugins/s3/S3CopyArtifact.java:384 | the key suffix uses only `A`-`Z` and `_`, with no two `_` in a row, and is empty only for the empty name |
| EnvRecord.EnvKey | src/main/java/hudson/plugins/s3/S3CopyArtifact.java:383-384 | every key is `COPYARTIFACT_BUILD_NUMBER_` followed by the key suffix |
| EnvRecord.Add | src/main/java/hudson/plugins/s3/S3CopyArtifact.java:379-386 | with a null map, nothing changes; otherwise the key gets `Integer.toString` of the build number, a canonical numeral that reads back as that number, and every other entry is kept |
| EnvRecord.BuildEnvVars | src/main/java/hudson/plugins/s3/S3CopyArtifact.java:388-390 | the recorded entries are added to the environment and override entries under the same key; other entries are kept; a null map adds nothing |
| EnvRecord.LettersOnlyKeySuffix | src/main/java/hudson/plugins/s3/S3CopyArtifact.java:384 | a name of ASCII letters only gets its upper-case self as key suffix |
| EnvRecord.SameProjectSameKey | src/main/java/hudson/plugins/s3/S3CopyArtifact.java:381-384 | `p/anything` has the same key as `p` |
| EnvRecord.LaterAddOverwrites | src/main/java/hudson/plugins/s3/S3CopyArtifact.java:379-386 | two adds for the same project with different filters leave exactly what the later add alone would |
| Fingerprints.GetOrCreate | src/main/java/hudson/plugins/s3/S3CopyArtifact.java:236 | an existing entry is returned untouched; a new one carries the record's name, the source as original build and no users |
| Fingerprints.AddUsage | src/main/java/hudson/plugins/s3/S3CopyArtifact.java:237-238 | adding a user grows that entry's users by that build and changes nothing else |
| Fingerprints.LinkOne | src/main/java/hudson/plugins/s3/S3CopyArtifact.java:234-238 | one record adds exactly the source and destination as users of its digest's entry and nothing is lost; a new entry is named after the record |
| Fingerprints.Link | src/main/java/hudson/plugins/s3/S3CopyArtifact.java:233-240 | after the record loop the store has the old entries plus one per new digest; a build uses an entry exactly when it did before or it is the source or destination and some record has that digest; names and original builds of existing entries are kept |
| Fingerprints.LinkNamesNewEntries | src/main/java/hudson/plugins/s3/S3CopyArtifact.java:233-238 | a new entry carries the name of the first record with its digest, the source as original build, and exactly the source and destination as users |
| Fingerprints.LinkIdempotent | src/main/java/hudson/plugins/s3/S3CopyArtifact.java:233-240 | linking the same records between the same builds again leaves the store unchanged |
| Fingerprints.LinkAsWritten | src/main/java/hudson/plugins/s3/S3CopyArtifact.java:236-237 | as written, the loop agrees with `Link` for an `AbstractBuild` source; for any other source it leaves the store as it is when there are no records, and with at least one record it throws with only the first record's entry created |
| Fingerprints.NonAbstractSourceThrows | src/main/java/hudson/plugins/s3/S3CopyArtifact.java:237-248 | one downloaded file from a source that is not an `AbstractBuild` throws as written; the corrected loop records both builds |
| Fingerprints.MergeSummary | src/main/java/hudson/plugins/s3/S3CopyArtifact.java:246-248 | the build's summary gains the new pairs and keeps every earlier pair under other names; other builds' summaries are unchanged |
| Fingerprints.CollectFingerprints | src/main/java/hudson/plugins/s3/S3CopyArtifact.java:232-239 | the collected map has one key per distinct copied name and no other key |
| Fingerprints.CollectLastWins | src/main/java/hudson/plugins/s3/S3CopyArtifact.java:232-239 | each name holds the digest of the last record with that name: a later `put` overwrites an earlier one |
| Fingerprints.CollectedCountPositive | src/main/java/hudson/plugins/s3/S3CopyArtifact.java:254 | `fingerprints.size() > 0` exactly when at least one record was downloaded |
| CopyUnit.TryCopy | src/main/java/hudson/plugins/s3/S3CopyArtifact.java:215-230 | the copy stops at a missing S3 action, then at an unknown profile, then at a failing download; otherwise it yields the downloaded records |
| CopyUnit.Verdict | src/main/java/hudson/plugins/s3/S3CopyArtifact.java:215-254 | a missing action or profile gives `false` even when optional (lines 216-226); a failing download gives no value (an exception); a download gives `records != [] \|\| optional` (line 254) |
| CopyUnit.RecordSummaries | src/main/java/hudson/plugins/s3/S3CopyArtifact.java:242-249 | the destination always gets the pairs merged into its summary, and the source only when it is an `AbstractBuild`: the merged summary's names are the earlier names plus the copied ones, copied names take the new digest, and earlier pairs under other names are kept; no other build's summary changes |
| CopyUnit.PerformUnit | src/main/java/hudson/plugins/s3/S3CopyArtifact.java:211-257 | with the corrected record loop: early exits and a failing download leave the state unchanged; the returned boolean is the unit's verdict; a download links the records and merges the summaries; no recorded user and no summary name is lost; the `EnvAction` is never touched |
| CopyUnit.PerformUnitAsWritten | src/main/java/hudson/plugins/s3/S3CopyArtifact.java:228-256 | the unit as written equals `PerformUnit` for an `AbstractBuild` source or when nothing was downloaded; otherwise it throws `ClassCastException` after creating the first record's entry |
| CopyUnit.CopiedFilesAreLinked | src/main/java/hudson/plugins/s3/S3CopyArtifact.java:233-249 | every copied file's entry lists both source and destination as users; the destination's summary holds the digest of the last file of each name |
| CopyStep.PermittedJob | src/main/java/hudson/plugins/s3/S3CopyArtifact.java:149-159 | a resolved job is dropped exactly when the expanded name differs from the configured one and authenticated users may not read the job |
| CopyStep.SourceJob | src/main/java/hudson/plugins/s3/S3CopyArtifact.java:147-163 | the source job is the resolver's job for the expanded name, dropped exactly when it is unresolved or reached through a parameter and not readable by all authenticated users |
| CopyStep.UnparameterisedNameIsNotChecked | src/main/java/hudson/plugins/s3/S3CopyArtifact.java:149-159 | a name that expands to itself gets the resolver's job without the permission check |
| CopyStep.SourceBuild | src/main/java/hudson/plugins/s3/S3CopyArtifact.java:164 | no job, no build; an expanded name that is a job's full name is searched in that job with the match-all filter; any other name that yields a job is searched in the job named by the part before its first `/` (past index 0), with the rest as a parameter filter valid for that job |
| CopyStep.SourceBuildFilter | src/main/java/hudson/plugins/s3/S3CopyArtifact.java:164 | a job's full name is searched with the match-all filter; `p/q` resolved by splitting is searched in `p` with filter `q` |
| CopyStep.EffectiveFilter | src/main/java/hudson/plugins/s3/S3CopyArtifact.java:180-181 | a blank expanded filter becomes `**`; any other is kept as expanded |
| CopyStep.UnitDirectories | src/main/java/hudson/plugins/s3/S3CopyArtifact.java:178-197 | every unit goes to the workspace, or to the expanded target below it when the target is not empty; a matrix run goes one level further, into its configuration's directory |
| CopyStep.Expand | src/main/java/hudson/plugins/s3/S3CopyArtifact.java:183-201 | Maven: the aggregate plus every module's last build, all into the same directory; matrix: one unit per exact run, into `dir/<configName>`; otherwise one unit |
| CopyStep.MatrixDirsDistinct | src/main/java/hudson/plugins/s3/S3CopyArtifact.java:194-197 | matrix runs with different configuration names never share a directory |
| CopyStep.RunUnits | src/main/java/hudson/plugins/s3/S3CopyArtifact.java:185-198 | with the corrected unit: the loop ends with an exception exactly when some unit's download throws; otherwise its result is true exactly when some unit returns true; users and summary names are never lost; every new user is a unit's source or the destination on a digest that unit copied; a build that is neither the destination nor a unit's source keeps its summary, and every summary pair is an earlier one or one a unit recorded for that build; the `EnvAction` is untouched |
| CopyStep.StopsAtFirstThrow | src/main/java/hudson/plugins/s3/S3CopyArtifact.java:185-207 | when unit `k` is the first whose download throws, the loop ends with the exception and the state and result of running the units before `k`: no later unit runs |
| CopyStep.EveryUnitIsLinked | src/main/java/hudson/plugins/s3/S3CopyArtifact.java:187-198 | with no exception, every file of every unit is linked to its source and the destination, including units after the first success (`\|=` does not short-circuit) |
| CopyStep.Perform | src/main/java/hudson/plugins/s3/S3CopyArtifact.java:140-209 | `false` with no change when the environment read throws or the job is unresolved or refused; `isOptional()` with no change when no build is selected or the workspace is missing; otherwise, with the corrected unit, the `EnvAction` records the build number first, the result is true exactly when no download throws and some unit succeeds, and when no download throws every copied file of every unit is linked to its source run and this build; the only users and summary pairs added are those of the units' copied files, and other builds' summaries are unchanged; in every case no recorded user and no summary name is lost |
| CopyStep.MatrixWithoutRunsFails | src/main/java/hudson/plugins/s3/S3CopyArtifact.java:191-198 | a matrix build with no exact runs fails the step even when optional |
| CopyStep.NoS3ActionFailsEvenIfOptional | src/main/java/hudson/plugins/s3/S3CopyArtifact.java:215-218 | a plain build with no S3 action fails the step even when optional |

## Findings

| source | as written | input that shows it | evidently intended | confidence | as-written member | corrected member |
|---|---|---|---|---|---|---|
| src/main/java/hudson/plugins/s3/S3CopyArtifact.java:237 | `f.add((AbstractBuild)src)` casts the source run unconditionally, yet line 242 is written for a source that is not an `AbstractBuild` | a selected run that is not an `AbstractBuild` and one downloaded file: the cast throws `ClassCastException` after the fingerprint entry is created, and the exception is not caught by the `IOException` handler | record both the source and the destination as users of every copied file, whatever kind of run the source is | medium; not executed | Fingerprints.LinkAsWritten (exhibited by Fingerprints.NonAbstractSourceThrows) | Fingerprints.Link |

## Left out

- `profile.downloadAll` (line 230), its glob matching and flattening, and `targetDir.mkdirs()`: they are not part of this model. They are the `download` field of the host snapshot, which returns the (name, digest) records or an I/O failure.
- `getItemByFullName`, the ACL check with the "authenticated" token, `FilePath.exists`, `env.expand`, `getEnvironment` and the build-selector strategies are host calls. They appear as fields of the host snapshot (`jobs`, `select`, `filterValid`), as the `authenticatedCanRead` field of each `Host.Job`, or as `Invocation` fields (`expand`, `workspace`).
- Console output, `MessageFormat`, `HyperlinkNote` and `Util.displayIOException` (lines 161, 166, 171, 204-206, 217, 224, 251-252) only log.
- `DescriptorImpl` (lines 285-325) is form validation and selector listing for the UI.
- The iteration over all projects, `project.save()` and its logged failure, and `getCopiers` (lines 332-358) are host I/O; only the rewrite of one stored name (`Rename.Rewrite`, `Rename.OnRenamed`) is modelled.
- `CopyArtifactRunListener` (lines 363-373) attaches the `EnvAction`; the model takes whether one is attached as part of the host state.
- `InterruptedException` and build interruption are not modelled; nothing in the step is concurrent.
- The getters (lines 115-129) are plain field reads of `CopyConfig.Config`.
- `CopyConfig.New`: takes a non-null project name; the source throws `NullPointerException` at line 100 for a null one.
- `EnvRecord.KeySuffix`: upper-cases ASCII letters only. Java's locale-sensitive `toUpperCase` also maps characters such as `ß` or `ı` to ASCII letters, so for such names the source's key can differ.
- `EnvRecord.BuildEnvVars`: treats the environment as a plain map. Jenkins' `EnvVars` compares keys without regard to case.
- `CopyStep.UnitDirectories`: treats the expanded target as one path segment below the workspace. `new FilePath(base, rel)` would also accept an absolute or multi-segment path.
- The `baseTargetDir` argument of the per-unit `perform` is never read by it, so it is not modelled.
- `Fingerprints.Link`: the store is keyed by digest, as Jenkins' `FingerprintMap` is. The file name and the original build are set when an entry is created. `FingerprintMap` itself is not part of this model.
- `CopyStep.Expand`: the module order of `getModuleLastBuilds().values()` is taken as given. The matrix configuration name `r.getParent().getName()` is a field of each exact run.
- `CopyUnit.PerformUnit`: uses the corrected record loop `Fingerprints.Link`. For a source that is not an `AbstractBuild` with at least one downloaded record, the code throws `ClassCastException` instead (`CopyUnit.PerformUnitAsWritten`, see "## Findings").
- `CopyUnit.PerformUnit`: `FingerprintMap.getOrCreate` and `Fingerprint.add` (lines 236-238) save the fingerprint and may throw `IOException`; that failure is not modelled, because the fingerprint store's persistence is not part of this model. The code would then keep the entries of the earlier records, write no summaries and make the step return `false`.
- `CopyStep.RunUnits`: built on the corrected unit. In the code, the `ClassCastException` of a unit ends the loop and escapes the step.
- `CopyStep.Perform`: built on the corrected unit. The code's escaping `ClassCastException` is not an outcome of the model.

=== FILE: copy_config.dfy ===
/**
 * The build step's stored configuration and its `@DataBoundConstructor`: how the form
 * values are normalised before they are kept, and how the boolean flags read back.
 */
module CopyConfig {
  import opened Wrappers
  import opened JavaStrings
  import opened Host
  import JobResolver

  /**
   * The stored fields. `flatten` and `optional` are `Boolean` objects: the constructor
   * stores TRUE or null, but a stored `Boolean.FALSE` is a possible value too.
   */
  datatype Config = Config(
    projectName: string,
    selector: BuildSelector,
    filter: string,
    target: string,
    flatten: Option<bool>,
    optional: Option<bool>)

  /** `isFlatten()`: the stored flag is non-null and true. */
  function IsFlatten(c: Config): bool {
    c.flatten == Some(true)
  }

  /** `isOptional()`: the stored flag is non-null and true. */
  function IsOptional(c: Config): bool {
    c.optional == Some(true)
  }

  /** Each getter is true for a stored TRUE only: a stored FALSE reads like null. Both
      apply the same test, each to its own field. */
  lemma FlagsReadTrueOnly(c: Config)
    ensures IsFlatten(c.(flatten := Some(true))) && IsOptional(c.(optional := Some(true)))
    ensures !IsFlatten(c.(flatten := Some(false))) && !IsOptional(c.(optional := Some(false)))
    ensures !IsFlatten(c.(flatten := None)) && !IsOptional(c.(optional := None))
    ensures IsFlatten(c) == IsOptional(c.(optional := c.flatten))
  {
  }

  /** `Util.fixNull` followed by `trim()`. */
  function FixNullTrim(s: Option<string>): (r: string)
    ensures s.None? ==> r == ""
    ensures s.Some? ==> r == Trim(s.value)
  {
    Trim(s.GetOr(""))
  }

  /** `flag ? Boolean.TRUE : null`. */
  function StoredFlag(flag: bool): (b: Option<bool>)
    ensures b.Some? <==> flag
    ensures b != Some(false)
  {
    if flag then Some(true) else None
  }

  /**
   * The project name the constructor keeps. A name without `$` that does not resolve
   * against the current jobs is cleared to `""`; a name with `$` is kept verbatim (it
   * is checked when the build runs).
   */
  function StoredProjectName(w: World, projectName: string): (n: string)
    ensures '$' in projectName ==> n == projectName
    ensures '$' !in projectName && JobResolver.Resolve(w, projectName).job.Some? ==> n == projectName
    ensures '$' !in projectName && JobResolver.Resolve(w, projectName).job.None? ==> n == ""
  {
    if IndexOf(projectName, '$') < 0 && JobResolver.Resolve(w, projectName).job.None?
    then "" else projectName
  }

  /** Normalising a stored name again keeps it, whatever jobs exist. */
  lemma StoredProjectNameIdempotent(w: World, projectName: string)
    ensures StoredProjectName(w, StoredProjectName(w, projectName)) == StoredProjectName(w, projectName)
  {
    var n := StoredProjectName(w, projectName);
    if n == "" {
      assert '$' !in n;
    }
  }

  /**
   * The constructor. The project name is normalised by `StoredProjectName`; a null
   * selector becomes the default one; filter and target are null-fixed and trimmed;
   * both flags are stored as TRUE or null and read back as given.
   */
  function New(w: World, projectName: string, selector: Option<BuildSelector>,
               filter: Option<string>, target: Option<string>,
               flatten: bool, optional: bool): (c: Config)
    ensures c.projectName == StoredProjectName(w, projectName)
    ensures selector.None? ==> c.selector == DefaultSelector
    ensures selector.Some? ==> c.selector == selector.value
    ensures filter.None? ==> c.filter == ""
    ensures filter.Some? ==> c.filter == Trim(filter.value)
    ensures target.None? ==> c.target == ""
    ensures target.Some? ==> c.target == Trim(target.value)
    ensures IsFlatten(c) == flatten
    ensures IsOptional(c) == optional
    ensures c.flatten == StoredFlag(flatten) && c.optional == StoredFlag(optional)
  {
    Config(StoredProjectName(w, projectName), selector.GetOr(DefaultSelector),
           FixNullTrim(filter), FixNullTrim(target), StoredFlag(flatten), StoredFlag(optional))
  }

  /** Trimming an already trimmed value changes nothing. */
  lemma FixNullTrimIdempotent(s: Option<string>)
    ensures FixNullTrim(Some(FixNullTrim(s))) == FixNullTrim(s)
  {
    TrimIdempotent(s.GetOr(""));
  }

  /**
   * Saving a configuration again with the values it reads back leaves it unchanged:
   * the normalisation is idempotent, whatever jobs exist.
   */
  lemma NewIsIdempotent(w: World, projectName: string, selector: Option<BuildSelector>,
                        filter: Option<string>, target: Option<string>,
                        flatten: bool, optional: bool)
    ensures var c := New(w, projectName, selector, filter, target, flatten, optional);
            New(w, c.projectName, Some(c.selector), Some(c.filter), Some(c.target),
                IsFlatten(c), IsOptional(c)) == c
  {
    StoredProjectNameIdempotent(w, projectName);
    FixNullTrimIdempotent(filter);
    FixNullTrimIdempotent(target);
  }
}

=== FILE: copy_step.dfy ===
/**
 * The build step's `perform(AbstractBuild, Launcher, BuildListener)`: resolve the
 * (expanded) project name, refuse parameter-selected jobs that not every authenticated
 * user may read, select the source build, check the workspace, record the build number
 * in the environment, default the filter, expand composite builds into units and copy
 * every unit, combining the results with a non-short-circuit OR.
 */
module CopyStep {
  import opened Wrappers
  import opened JavaStrings
  import opened Host
  import opened CopyConfig
  import opened Fingerprints
  import opened CopyUnit
  import JobResolver
  import EnvRecord

  /** `build.getWorkspace()` followed by `targetDir.exists()`. */
  datatype Workspace = NoWorkspace | Missing | Present | ExistsCheckFails

  /**
   * What the destination build supplies: its identity, the variable expansion of its
   * environment with the build variables laid over it (`None` when
   * `getEnvironment` threw an `IOException`), and its workspace.
   */
  datatype Invocation = Invocation(
    dst: BuildId,
    expand: Option<string -> string>,
    workspace: Workspace)

  datatype StepOutcome = StepOutcome(ok: bool, state: HostState)

  /** A copy unit: one source run and the directory its files go to. */
  datatype UnitOfWork = UnitOfWork(src: Run, dir: Path)

  /**
   * The permission check on parameterised names: a job reached through an expanded
   * name that differs from the configured one is dropped unless every authenticated
   * user may read it.
   */
  function PermittedJob(r: JobResolver.Resolution, expanded: string, configured: string): (j: Option<Job>)
    ensures j.Some? ==> j == r.job
    ensures j.None? <==>
              r.job.None? || (expanded != configured && !r.job.value.authenticatedCanRead)
  {
    if r.job.Some? && expanded != configured && !r.job.value.authenticatedCanRead then None
    else r.job
  }

  /** The source job the step works with, after expansion, resolution and the
      permission check. */
  function SourceJob(w: World, c: Config, expand: string -> string): (j: Option<Job>)
    ensures var r := JobResolver.Resolve(w, expand(c.projectName));
            && (j.Some? ==> j == r.job)
            && (j.None? <==> r.job.None? || (expand(c.projectName) != c.projectName && !r.job.value.authenticatedCanRead))
  {
    var expanded := expand(c.projectName);
    PermittedJob(JobResolver.Resolve(w, expanded), expanded, c.projectName)
  }

  /** A name that expands to itself is not subject to the permission check: the
      source job is whatever the resolver finds. */
  lemma UnparameterisedNameIsNotChecked(w: World, c: Config, expand: string -> string)
    requires expand(c.projectName) == c.projectName
    ensures SourceJob(w, c, expand) == JobResolver.Resolve(w, c.projectName).job
  {
  }

  /**
   * The build the configured selector picks from the source job. Without a job there is
   * no build. An expanded name that is a job's full name is searched in that job with
   * the match-all filter; any other name that yields a job was split at its first `/`,
   * past index 0, and is searched in the prefix's job with the rest as a valid
   * parameter filter.
   */
  function SourceBuild(w: World, c: Config, expand: string -> string): (b: Option<SelectedBuild>)
    ensures SourceJob(w, c, expand).None? ==> b.None?
    ensures var e := expand(c.projectName);
            SourceJob(w, c, expand).Some? && e in w.jobs ==>
              b == w.select(c.selector, w.jobs[e], MatchAll)
    ensures var e := expand(c.projectName);
            SourceJob(w, c, expand).Some? && e !in w.jobs ==>
              var i := IndexOf(e, '/');
              && 0 < i && e[..i] in w.jobs
              && w.filterValid(w.jobs[e[..i]], e[i + 1..])
              && b == w.select(c.selector, w.jobs[e[..i]], ParametersFilter(e[i + 1..]))
  {
    match SourceJob(w, c, expand)
    case None => None
    case Some(job) =>
      var e := expand(c.projectName);
      if e in w.jobs then w.select(c.selector, job, MatchAll)
      else
        JobResolver.NoFallbackToPrefix(w, e);
        w.select(c.selector, job, JobResolver.Resolve(w, expand(c.projectName)).filter)
  }

  /** A name that is a job's full name is searched without parameter filter; a name
      `p/q` resolved by splitting is searched in `p` with the filter `q`. */
  lemma SourceBuildFilter(w: World, c: Config, expand: string -> string, p: string, q: string)
    requires SourceJob(w, c, expand).Some?
    requires p != [] && '/' !in p
    ensures expand(c.projectName) in w.jobs ==>
              SourceBuild(w, c, expand) == w.select(c.selector, w.jobs[expand(c.projectName)], MatchAll)
    ensures expand(c.projectName) == p + "/" + q && p + "/" + q !in w.jobs ==>
              && p in w.jobs
              && SourceBuild(w, c, expand) == w.select(c.selector, w.jobs[p], ParametersFilter(q))
  {
    if expand(c.projectName) == p + "/" + q && p + "/" + q !in w.jobs {
      JobResolver.ResolveSplitsAtFirstSlash(w, p, q);
    }
  }

  /** The expanded filter, with `**` when it is blank after trimming. */
  function EffectiveFilter(expanded: string): (f: string)
    ensures AllBlank(expanded) ==> f == "**"
    ensures !AllBlank(expanded) ==> f == expanded
  {
    TrimEmptyIffBlank(expanded);
    if |Trim(expanded)| == 0 then "**" else expanded
  }

  /** The workspace, or the expanded `target` below it when `target` is not empty. */
  function TargetDir(c: Config, expand: string -> string): (p: Path)
    ensures c.target == [] ==> p == []
    ensures c.target != [] ==> p == [expand(c.target)]
  {
    if |c.target| > 0 then [expand(c.target)] else []
  }

  /**
   * Where each unit's files go: the workspace itself (`[]`) or, when the target is
   * not empty, the expanded target below it; a matrix run goes one level further
   * down, into a directory named after its configuration.
   */
  lemma UnitDirectories(b: SelectedBuild, c: Config, expand: string -> string)
    ensures var units := Expand(b, TargetDir(c, expand));
            var base := if c.target == [] then [] else [expand(c.target)];
            forall i :: 0 <= i < |units| ==>
              units[i].dir == base + (if b.variant.Matrix? then [b.variant.exactRuns[i].configName] else [])
  {
  }

  /**
   * The units of a selected build. A Maven aggregate yields itself and then the last
   * build of every module, all into the same directory; a matrix build yields its
   * exact runs, each into a sub-directory named after its configuration (and not the
   * matrix build itself); any other build yields itself.
   */
  function Expand(b: SelectedBuild, dir: Path): (units: seq<UnitOfWork>)
    ensures b.variant.Plain? ==> units == [UnitOfWork(b.run, dir)]
    ensures b.variant.MavenAggregate? ==>
              && |units| == 1 + |b.variant.moduleLastBuilds|
              && units[0] == UnitOfWork(b.run, dir)
              && forall i :: 0 <= i < |b.variant.moduleLastBuilds| ==>
                   units[i + 1] == UnitOfWork(b.variant.moduleLastBuilds[i], dir)
    ensures b.variant.Matrix? ==>
              && |units| == |b.variant.exactRuns|
              && forall i :: 0 <= i < |units| ==>
                   units[i] == UnitOfWork(b.variant.exactRuns[i].run, dir + [b.variant.exactRuns[i].configName])
  {
    match b.variant
    case Plain => [UnitOfWork(b.run, dir)]
    case MavenAggregate(mods) =>
      [UnitOfWork(b.run, dir)] + seq(|mods|, i requires 0 <= i < |mods| => UnitOfWork(mods[i], dir))
    case Matrix(runs) =>
      seq(|runs|, i requires 0 <= i < |runs| => UnitOfWork(runs[i].run, dir + [runs[i].configName]))
  }

  /** Matrix runs with different configuration names never share a directory. */
  lemma MatrixDirsDistinct(b: SelectedBuild, dir: Path, i: int, j: int)
    requires b.variant.Matrix?
    requires 0 <= i < |b.variant.exactRuns| && 0 <= j < |b.variant.exactRuns|
    requires b.variant.exactRuns[i].configName != b.variant.exactRuns[j].configName
    ensures Expand(b, dir)[i].dir != Expand(b, dir)[j].dir
  {
    var units := Expand(b, dir);
    assert units[i].dir[|dir|] == b.variant.exactRuns[i].configName;
    assert units[j].dir[|dir|] == b.variant.exactRuns[j].configName;
  }

  /** The unit `u` returns `true`. */
  predicate UnitSucceeds(w: World, c: Config, filter: string, u: UnitOfWork) {
    Verdict(TryCopy(w, c, u.src, filter, u.dir), IsOptional(c)) == Some(true)
  }

  /** The download of unit `u` throws an `IOException`. */
  predicate UnitThrows(w: World, c: Config, filter: string, u: UnitOfWork) {
    TryCopy(w, c, u.src, filter, u.dir) == DownloadFailed
  }

  /** Unit `u` copied a file with digest `d`. */
  ghost predicate CopiedBy(w: World, c: Config, filter: string, u: UnitOfWork, d: string) {
    && TryCopy(w, c, u.src, filter, u.dir).Copied?
    && d in Digests(TryCopy(w, c, u.src, filter, u.dir).records)
  }

  /** Unit `u`, when it copies, records the pair `n -> v` in the summary of build `x`:
      `x` is the destination, or the unit's source when that is an `AbstractBuild`. */
  ghost predicate SummaryPairFrom(w: World, c: Config, filter: string, u: UnitOfWork, dst: BuildId,
                                  x: BuildId, n: string, v: string) {
    && TryCopy(w, c, u.src, filter, u.dir).Copied?
    && (x == dst || (u.src.isAbstractBuild && x == u.src.id))
    && var fps := CollectFingerprints(TryCopy(w, c, u.src, filter, u.dir).records);
       n in fps && fps[n] == v
  }

  /** Build `x` may gain a summary from the units: it is the destination or a unit's source. */
  ghost predicate Summarised(units: seq<UnitOfWork>, dst: BuildId, x: BuildId) {
    x == dst || exists i :: 0 <= i < |units| && units[i].src.id == x
  }

  /** Every user in `after` that is not in `before` is a unit's source or `dst`, on a
      digest that unit copied. */
  ghost predicate UsersFromUnits(w: World, c: Config, filter: string, units: seq<UnitOfWork>,
                                 dst: BuildId, before: Store, after: Store) {
    forall d, b :: Uses(after, d, b) ==>
      Uses(before, d, b)
      || exists i :: 0 <= i < |units| && CopiedBy(w, c, filter, units[i], d)
                     && (b == units[i].src.id || b == dst)
  }

  /**
   * The summaries in `after` differ from those in `before` only by what the units
   * recorded: a build that is neither `dst` nor a unit's source keeps its summary (or
   * its lack of one), and every pair is an earlier pair kept as it was or a pair some
   * unit recorded for that build.
   */
  ghost predicate SummariesFromUnits(w: World, c: Config, filter: string, units: seq<UnitOfWork>,
                                     dst: BuildId, before: Summaries, after: Summaries) {
    && (forall x :: x in after && x !in before ==> Summarised(units, dst, x))
    && (forall x :: x in before && !Summarised(units, dst, x) ==> x in after && after[x] == before[x])
    && (forall x, n :: x in after && n in after[x] ==>
          (x in before && n in before[x] && after[x][n] == before[x][n])
          || exists i :: 0 <= i < |units| && SummaryPairFrom(w, c, filter, units[i], dst, x, n, after[x][n]))
  }

  /** A state nobody changed meets both bounds, for any units. */
  lemma UnchangedIsFromUnits(w: World, c: Config, filter: string, units: seq<UnitOfWork>,
                             dst: BuildId, st: HostState)
    ensures UsersFromUnits(w, c, filter, units, dst, st.fingerprints, st.fingerprints)
    ensures SummariesFromUnits(w, c, filter, units, dst, st.summaries, st.summaries)
  {
  }

  /** One unit adds users only for its own copied files. */
  lemma UnitUsersFromItself(w: World, c: Config, st: HostState, u: UnitOfWork, dst: BuildId, filter: string)
    ensures UsersFromUnits(w, c, filter, [u], dst, st.fingerprints,
                           PerformUnit(w, c, st, u.src, dst, filter, u.dir).state.fingerprints)
  {
    var fs := PerformUnit(w, c, st, u.src, dst, filter, u.dir).state.fingerprints;
    if TryCopy(w, c, u.src, filter, u.dir).Copied? {
      assert [u][0] == u;
      forall d, b | Uses(fs, d, b) && !Uses(st.fingerprints, d, b)
        ensures CopiedBy(w, c, filter, [u][0], d) && (b == [u][0].src.id || b == dst)
      {
      }
    }
  }

  lemma SummarisedByOne(u: UnitOfWork, dst: BuildId, x: BuildId)
    ensures Summarised([u], dst, x) <==> x == dst || x == u.src.id
  {
    if x == u.src.id {
      assert [u][0].src.id == x;
    }
  }

  /** The summaries a copying unit records come from its own copied files. */
  lemma RecordedSummariesFromUnit(w: World, c: Config, filter: string, u: UnitOfWork, dst: BuildId,
                                  before: Summaries)
    requires TryCopy(w, c, u.src, filter, u.dir).Copied?
    ensures var fps := CollectFingerprints(TryCopy(w, c, u.src, filter, u.dir).records);
            SummariesFromUnits(w, c, filter, [u], dst, before, RecordSummaries(before, u.src, dst, fps))
  {
    var fps := CollectFingerprints(TryCopy(w, c, u.src, filter, u.dir).records);
    var after := RecordSummaries(before, u.src, dst, fps);
    forall x | x in after && x !in before ensures Summarised([u], dst, x) {
      SummarisedByOne(u, dst, x);
    }
    forall x | x in before && !Summarised([u], dst, x) ensures x in after && after[x] == before[x] {
      SummarisedByOne(u, dst, x);
    }
    forall x, n | x in after && n in after[x] && !(x in before && n in before[x] && after[x][n] == before[x][n])
      ensures SummaryPairFrom(w, c, filter, [u][0], dst, x, n, after[x][n])
    {
      assert [u][0] == u;
      assert x == dst || (u.src.isAbstractBuild && x == u.src.id);
      assert n in fps;
    }
  }

  /** One unit adds summary pairs only for its own copied files. */
  lemma UnitSummariesFromItself(w: World, c: Config, st: HostState, u: UnitOfWork, dst: BuildId, filter: string)
    ensures SummariesFromUnits(w, c, filter, [u], dst, st.summaries,
                               PerformUnit(w, c, st, u.src, dst, filter, u.dir).state.summaries)
  {
    if TryCopy(w, c, u.src, filter, u.dir).Copied? {
      RecordedSummariesFromUnit(w, c, filter, u, dst, st.summaries);
    }
  }

  /** Running `u` and then `rest` changes the state only by the files of `[u] + rest`. */
  lemma UsersCompose(w: World, c: Config, filter: string, u: UnitOfWork, rest: seq<UnitOfWork>,
                     dst: BuildId, s0: Store, s1: Store, s2: Store)
    requires UsersFromUnits(w, c, filter, [u], dst, s0, s1)
    requires UsersFromUnits(w, c, filter, rest, dst, s1, s2)
    ensures UsersFromUnits(w, c, filter, [u] + rest, dst, s0, s2)
  {
    var all := [u] + rest;
    forall d, b | Uses(s2, d, b) && !Uses(s0, d, b)
      ensures exists i :: 0 <= i < |all| && CopiedBy(w, c, filter, all[i], d) && (b == all[i].src.id || b == dst)
    {
      if Uses(s1, d, b) {
        var i :| 0 <= i < 1 && CopiedBy(w, c, filter, [u][i], d) && (b == [u][i].src.id || b == dst);
        assert all[0] == [u][i];
      } else {
        var i :| 0 <= i < |rest| && CopiedBy(w, c, filter, rest[i], d) && (b == rest[i].src.id || b == dst);
        assert all[i + 1] == rest[i];
      }
    }
  }

  /** A build one of `[u]` or `rest` may summarise, `[u] + rest` may too. */
  lemma SummarisedCompose(u: UnitOfWork, rest: seq<UnitOfWork>, dst: BuildId, x: BuildId)
    ensures Summarised([u] + rest, dst, x) <==> Summarised([u], dst, x) || Summarised(rest, dst, x)
  {
    var all := [u] + rest;
    if Summarised([u], dst, x) && x != dst {
      assert all[0] == [u][0];
    }
    if Summarised(rest, dst, x) && x != dst {
      var i :| 0 <= i < |rest| && rest[i].src.id == x;
      assert all[i + 1] == rest[i];
    }
    if Summarised(all, dst, x) && x != dst {
      var i :| 0 <= i < |all| && all[i].src.id == x;
      if i == 0 {
        assert [u][0].src.id == x;
      } else {
        assert rest[i - 1].src.id == x;
      }
    }
  }

  lemma SummariesCompose(w: World, c: Config, filter: string, u: UnitOfWork, rest: seq<UnitOfWork>,
                         dst: BuildId, s0: Summaries, s1: Summaries, s2: Summaries)
    requires SummariesFromUnits(w, c, filter, [u], dst, s0, s1)
    requires SummariesFromUnits(w, c, filter, rest, dst, s1, s2)
    ensures SummariesFromUnits(w, c, filter, [u] + rest, dst, s0, s2)
  {
    var all := [u] + rest;
    forall x | x in s2 && x !in s0 ensures Summarised(all, dst, x) {
      SummarisedCompose(u, rest, dst, x);
    }
    forall x | x in s0 && !Summarised(all, dst, x) ensures x in s2 && s2[x] == s0[x] {
      SummarisedCompose(u, rest, dst, x);
    }
    forall x, n | x in s2 && n in s2[x] && !(x in s0 && n in s0[x] && s2[x][n] == s0[x][n])
      ensures exists i :: 0 <= i < |all| && SummaryPairFrom(w, c, filter, all[i], dst, x, n, s2[x][n])
    {
      if x in s1 && n in s1[x] && s2[x][n] == s1[x][n] {
        var i :| 0 <= i < 1 && SummaryPairFrom(w, c, filter, [u][i], dst, x, n, s1[x][n]);
        assert all[0] == [u][i];
      } else {
        var i :| 0 <= i < |rest| && SummaryPairFrom(w, c, filter, rest[i], dst, x, n, s2[x][n]);
        assert all[i + 1] == rest[i];
      }
    }
  }

  /** How the loop over the units ended. */
  datatype LoopOutcome = LoopOutcome(ok: bool, ioException: bool, state: HostState)

  /**
   * `ok |= perform(...)` over the units in order. `|=` evaluates its right side even
   * when `ok` is already true, so every unit runs; only an `IOException` stops the
   * loop. Without one, the result is true exactly when some unit returns true.
   * Recorded users and summary names are never lost, the only users and summary pairs
   * added are those of the units' copied files, and the `EnvAction` is left alone
   * (where an exception stops the loop is `StopsAtFirstThrow`).
   */
  function RunUnits(w: World, c: Config, st: HostState, dst: BuildId, filter: string,
                    units: seq<UnitOfWork>): (o: LoopOutcome)
    ensures o.ioException <==> exists i :: 0 <= i < |units| && UnitThrows(w, c, filter, units[i])
    ensures !o.ioException ==>
              (o.ok <==> exists i :: 0 <= i < |units| && UnitSucceeds(w, c, filter, units[i]))
    ensures KeepsUsers(st.fingerprints, o.state.fingerprints)
    ensures UsersFromUnits(w, c, filter, units, dst, st.fingerprints, o.state.fingerprints)
    ensures KeepsSummaryNames(st.summaries, o.state.summaries)
    ensures SummariesFromUnits(w, c, filter, units, dst, st.summaries, o.state.summaries)
    ensures o.state.envAction == st.envAction
    decreases |units|
  {
    UnchangedIsFromUnits(w, c, filter, units, dst, st);
    if units == [] then LoopOutcome(false, false, st)
    else
      var u := units[0];
      var first := PerformUnit(w, c, st, u.src, dst, filter, u.dir);
      match first
      case IOException(st1) => LoopOutcome(false, true, st1)
      case Returned(ok, st1) =>
        var rest := RunUnits(w, c, st1, dst, filter, units[1..]);
        assert forall i :: 1 <= i < |units| ==> units[i] == units[1..][i - 1];
        KeepsUsersTransitive(st.fingerprints, st1.fingerprints, rest.state.fingerprints);
        KeepsSummaryNamesTransitive(st.summaries, st1.summaries, rest.state.summaries);
        UnitUsersFromItself(w, c, st, u, dst, filter);
        UnitSummariesFromItself(w, c, st, u, dst, filter);
        UsersCompose(w, c, filter, u, units[1..], dst, st.fingerprints, st1.fingerprints, rest.state.fingerprints);
        SummariesCompose(w, c, filter, u, units[1..], dst, st.summaries, st1.summaries, rest.state.summaries);
        assert [u] + units[1..] == units;
        LoopOutcome(ok || rest.ok, rest.ioException, rest.state)
  }

  /**
   * An `IOException` leaves the loop: when unit `k` is the first whose download throws,
   * the loop ends as running the units before it did, only with the exception, and no
   * later unit runs.
   */
  lemma {:induction false} StopsAtFirstThrow(w: World, c: Config, st: HostState, dst: BuildId,
                                             filter: string, units: seq<UnitOfWork>, k: int)
    requires 0 <= k < |units| && UnitThrows(w, c, filter, units[k])
    requires forall i :: 0 <= i < k ==> !UnitThrows(w, c, filter, units[i])
    ensures var before := RunUnits(w, c, st, dst, filter, units[..k]);
            RunUnits(w, c, st, dst, filter, units) == LoopOutcome(before.ok, true, before.state)
    decreases |units|
  {
    var u := units[0];
    var first := PerformUnit(w, c, st, u.src, dst, filter, u.dir);
    if k == 0 {
      assert units[..0] == [];
    } else {
      assert !UnitThrows(w, c, filter, units[0]);
      assert units[1..][k - 1] == units[k];
      forall i | 0 <= i < k - 1 ensures !UnitThrows(w, c, filter, units[1..][i]) {
        assert units[1..][i] == units[i + 1];
      }
      StopsAtFirstThrow(w, c, first.state, dst, filter, units[1..], k - 1);
      assert units[..k][0] == u;
      assert units[..k][1..] == units[1..][..k - 1];
    }
  }

  /**
   * Every unit runs: when no download throws, every file of every unit, including the
   * units after the first successful one, is linked to its source run and to the
   * destination build.
   */
  lemma {:induction false} EveryUnitIsLinked(w: World, c: Config, st: HostState, dst: BuildId,
                                             filter: string, units: seq<UnitOfWork>, i: int, j: int)
    requires !RunUnits(w, c, st, dst, filter, units).ioException
    requires 0 <= i < |units|
    requires TryCopy(w, c, units[i].src, filter, units[i].dir).Copied?
    requires 0 <= j < |TryCopy(w, c, units[i].src, filter, units[i].dir).records|
    ensures var d := TryCopy(w, c, units[i].src, filter, units[i].dir).records[j].digest;
            var fs := RunUnits(w, c, st, dst, filter, units).state.fingerprints;
            Uses(fs, d, units[i].src.id) && Uses(fs, d, dst)
    decreases |units|
  {
    var u := units[0];
    var first := PerformUnit(w, c, st, u.src, dst, filter, u.dir);
    assert first.Returned?;
    var rest := RunUnits(w, c, first.state, dst, filter, units[1..]);
    assert RunUnits(w, c, st, dst, filter, units).state == rest.state;
    assert !rest.ioException;
    if i == 0 {
      CopiedFilesAreLinked(w, c, st, u.src, dst, filter, u.dir);
      assert KeepsUsers(first.state.fingerprints, rest.state.fingerprints);
    } else {
      var v := units[1..][i - 1];
      assert v == units[i];
      assert TryCopy(w, c, v.src, filter, v.dir) == TryCopy(w, c, units[i].src, filter, units[i].dir);
      EveryUnitIsLinked(w, c, first.state, dst, filter, units[1..], i - 1, j);
    }
  }

  /** Every file that some unit copied is used by that unit's source run and by `dst`
      in the store `fs`. */
  predicate EveryFileLinked(w: World, c: Config, filter: string, units: seq<UnitOfWork>,
                            dst: BuildId, fs: Store) {
    forall i, j :: 0 <= i < |units| && TryCopy(w, c, units[i].src, filter, units[i].dir).Copied?
                   && 0 <= j < |TryCopy(w, c, units[i].src, filter, units[i].dir).records| ==>
                     var d := TryCopy(w, c, units[i].src, filter, units[i].dir).records[j].digest;
                     Uses(fs, d, units[i].src.id) && Uses(fs, d, dst)
  }

  /** `EveryUnitIsLinked` for all units and files at once, when no download throws. */
  lemma LoopLinksEveryFile(w: World, c: Config, st: HostState, dst: BuildId,
                           filter: string, units: seq<UnitOfWork>)
    ensures (forall i :: 0 <= i < |units| ==> !UnitThrows(w, c, filter, units[i])) ==>
              EveryFileLinked(w, c, filter, units, dst, RunUnits(w, c, st, dst, filter, units).state.fingerprints)
  {
    if forall i :: 0 <= i < |units| ==> !UnitThrows(w, c, filter, units[i]) {
      forall i, j | 0 <= i < |units| && TryCopy(w, c, units[i].src, filter, units[i].dir).Copied?
                    && 0 <= j < |TryCopy(w, c, units[i].src, filter, units[i].dir).records|
        ensures var d := TryCopy(w, c, units[i].src, filter, units[i].dir).records[j].digest;
                var fs := RunUnits(w, c, st, dst, filter, units).state.fingerprints;
                Uses(fs, d, units[i].src.id) && Uses(fs, d, dst)
      {
        EveryUnitIsLinked(w, c, st, dst, filter, units, i, j);
      }
    }
  }

  /**
   * The whole step. It returns `false` when the environment cannot be read or the
   * source job is unresolved or not permitted (whatever `optional` says), and
   * `isOptional()` when no build is selected or the workspace is missing; in those
   * cases nothing changes. Otherwise the `EnvAction`, if any, records the selected
   * build number under the expanded project name before any copying, and the result
   * is the OR over all units, or `false` when a download throws; when none throws,
   * every copied file of every unit is linked to its source run and to this build.
   * Recorded users and the names in every build's summary are never lost; the only
   * users and summary pairs added are those of the units' copied files, and the
   * summary of a build that is neither this build nor a unit's source is unchanged.
   */
  function Perform(w: World, c: Config, inv: Invocation, st: HostState): (o: StepOutcome)
    ensures inv.expand.None? ==> o == StepOutcome(false, st)
    ensures inv.expand.Some? && SourceJob(w, c, inv.expand.value).None? ==> o == StepOutcome(false, st)
    ensures (inv.expand.Some? && SourceJob(w, c, inv.expand.value).Some?
             && SourceBuild(w, c, inv.expand.value).None?) ==> o == StepOutcome(IsOptional(c), st)
    ensures inv.expand.Some? && SourceBuild(w, c, inv.expand.value).Some? ==>
              && (inv.workspace == NoWorkspace || inv.workspace == Missing ==> o == StepOutcome(IsOptional(c), st))
              && (inv.workspace == ExistsCheckFails ==> o == StepOutcome(false, st))
    ensures inv.expand.Some? && SourceBuild(w, c, inv.expand.value).Some? && inv.workspace == Present ==>
              var expand := inv.expand.value;
              var src := SourceBuild(w, c, expand).value;
              var units := Expand(src, TargetDir(c, expand));
              var filter := EffectiveFilter(expand(c.filter));
              && o.state.envAction ==
                   (if st.envAction.Some? then Some(EnvRecord.Add(st.envAction.value, expand(c.projectName), src.run.id.number))
                    else None)
              && (o.ok <==>
                   && (forall i :: 0 <= i < |units| ==> !UnitThrows(w, c, filter, units[i]))
                   && exists i :: 0 <= i < |units| && UnitSucceeds(w, c, filter, units[i]))
              && ((forall i :: 0 <= i < |units| ==> !UnitThrows(w, c, filter, units[i])) ==>
                    EveryFileLinked(w, c, filter, units, inv.dst, o.state.fingerprints))
              && UsersFromUnits(w, c, filter, units, inv.dst, st.fingerprints, o.state.fingerprints)
              && SummariesFromUnits(w, c, filter, units, inv.dst, st.summaries, o.state.summaries)
    ensures KeepsUsers(st.fingerprints, o.state.fingerprints)
    ensures KeepsSummaryNames(st.summaries, o.state.summaries)
  {
    match inv.expand
    case None => StepOutcome(false, st)
    case Some(expand) =>
      var expanded := expand(c.projectName);
      var job := SourceJob(w, c, expand);
      if job.None? then StepOutcome(false, st)
      else
        var src := SourceBuild(w, c, expand);
        if src.None? then StepOutcome(IsOptional(c), st)
        else if inv.workspace == NoWorkspace || inv.workspace == Missing then StepOutcome(IsOptional(c), st)
        else if inv.workspace == ExistsCheckFails then StepOutcome(false, st)
        else
          var env' := if st.envAction.Some?
                      then Some(EnvRecord.Add(st.envAction.value, expanded, src.value.run.id.number))
                      else None;
          var filter := EffectiveFilter(expand(c.filter));
          var units := Expand(src.value, TargetDir(c, expand));
          var loop := RunUnits(w, c, st.(envAction := env'), inv.dst, filter, units);
          LoopLinksEveryFile(w, c, st.(envAction := env'), inv.dst, filter, units);
          StepOutcome(loop.ok && !loop.ioException, loop.state)
  }

  /** A matrix build without exact runs fails the step, even when it is optional. */
  lemma MatrixWithoutRunsFails(w: World, c: Config, inv: Invocation, st: HostState)
    requires inv.expand.Some? && inv.workspace == Present
    requires SourceBuild(w, c, inv.expand.value).Some?
    requires SourceBuild(w, c, inv.expand.value).value.variant == Matrix([])
    ensures !Perform(w, c, inv, st).ok
  {
  }

  /** An optional copy from a plain build without S3 artifacts still fails. */
  lemma NoS3ActionFailsEvenIfOptional(w: World, c: Config, inv: Invocation, st: HostState)
    requires inv.expand.Some? && inv.workspace == Present
    requires SourceBuild(w, c, inv.expand.value).Some?
    requires SourceBuild(w, c, inv.expand.value).value.variant == Plain
    requires SourceBuild(w, c, inv.expand.value).value.run.s3.None?
    ensures !Perform(w, c, inv, st).ok
  {
    var expand := inv.expand.value;
    var units := Expand(SourceBuild(w, c, expand).value, TargetDir(c, expand));
    assert |units| == 1 && !UnitSucceeds(w, c, EffectiveFilter(expand(c.filter)), units[0]);
  }
}

=== FILE: copy_unit.dfy ===
/**
 * The private `perform(Run src, AbstractBuild dst, ...)`: copying the S3 artifacts of
 * one source run into one target directory and recording the fingerprints.
 */
module CopyUnit {
  import opened Wrappers
  import opened Host
  import opened CopyConfig
  import opened Fingerprints
  import EnvRecord

  /** The host state the build step changes: the fingerprint store, the builds'
      `FingerprintAction` summaries, and the destination build's `EnvAction` (null
      when the build has none). */
  datatype HostState = HostState(
    fingerprints: Store,
    summaries: Summaries,
    envAction: Option<EnvRecord.EnvAction>)

  /** How far the copy of one run got; this depends on the host, not on its state. */
  datatype Attempt =
    | NoS3Action
    | NoProfile
    | DownloadFailed
    | Copied(records: seq<FingerprintRecord>)

  /** Looks up the run's S3 action, then its profile, then downloads. */
  function TryCopy(w: World, c: Config, src: Run, filter: string, dir: Path): (a: Attempt)
    ensures a == NoS3Action <==> src.s3.None?
    ensures a == NoProfile <==> src.s3.Some? && src.s3.value.profile !in w.profiles
    ensures a == DownloadFailed <==>
              && src.s3.Some? && src.s3.value.profile in w.profiles
              && w.download(src, filter, dir, IsFlatten(c)).DownloadIOException?
    ensures a.Copied? ==>
              && src.s3.Some? && src.s3.value.profile in w.profiles
              && w.download(src, filter, dir, IsFlatten(c)) == Downloaded(a.records)
  {
    match src.s3
    case None => NoS3Action
    case Some(action) =>
      if action.profile !in w.profiles then NoProfile
      else
        match w.download(src, filter, dir, IsFlatten(c))
        case DownloadIOException => DownloadFailed
        case Downloaded(records) => Copied(records)
  }

  /** The unit's result: `None` when an `IOException` leaves it, otherwise the boolean
      it returns. A run without S3 artifacts or with an unknown profile fails even when
      the copy is optional; a copy fails only when no file was copied and the copy is
      not optional. */
  function Verdict(a: Attempt, optional: bool): (v: Option<bool>)
    ensures v.None? <==> a == DownloadFailed
    ensures a == NoS3Action || a == NoProfile ==> v == Some(false)
    ensures a.Copied? ==> v == Some(a.records != [] || optional)
  {
    match a
    case NoS3Action => Some(false)
    case NoProfile => Some(false)
    case DownloadFailed => None
    case Copied(records) =>
      CollectedCountPositive(records);
      Some(|CollectFingerprints(records)| > 0 || optional)
  }

  datatype UnitOutcome = Returned(ok: bool, state: HostState) | IOException(state: HostState)

  /** The `FingerprintAction` loop: the source gets the summary only if it is an
      `AbstractBuild`, the destination always. Each of them merges the pairs into the
      summary it already has, keeping the pairs under other names. */
  function RecordSummaries(sums: Summaries, src: Run, dst: BuildId, fps: map<string, string>): (r: Summaries)
    ensures r.Keys == sums.Keys + {dst} + (if src.isAbstractBuild then {src.id} else {})
    ensures r[dst].Keys == (if dst in sums then sums[dst].Keys else {}) + fps.Keys
    ensures forall n :: n in fps ==> n in r[dst] && r[dst][n] == fps[n]
    ensures dst in sums ==> forall n :: n in sums[dst] && n !in fps ==> r[dst][n] == sums[dst][n]
    ensures src.isAbstractBuild ==>
              r[src.id].Keys == (if src.id in sums then sums[src.id].Keys else {}) + fps.Keys
    ensures src.isAbstractBuild ==> forall n :: n in fps ==> n in r[src.id] && r[src.id][n] == fps[n]
    ensures src.isAbstractBuild && src.id in sums ==>
              forall n :: n in sums[src.id] && n !in fps ==> r[src.id][n] == sums[src.id][n]
    ensures forall x :: x in sums && x != dst && (x != src.id || !src.isAbstractBuild) ==> r[x] == sums[x]
  {
    var s1 := if src.isAbstractBuild then MergeSummary(sums, src.id, fps) else sums;
    MergeSummary(s1, dst, fps)
  }

  /**
   * One unit. Early exits leave the state alone; an I/O failure leaves the state alone
   * and is reported as an exception; a download links every copied file to both
   * builds, records the summaries, and returns whether any file was copied or the copy
   * is optional. The destination's `EnvAction` is never touched here.
   */
  function PerformUnit(w: World, c: Config, st: HostState, src: Run, dst: BuildId,
                       filter: string, dir: Path): (o: UnitOutcome)
    ensures src.s3.None? ==> o == Returned(false, st)
    ensures src.s3.Some? && src.s3.value.profile !in w.profiles ==> o == Returned(false, st)
    ensures o.IOException? <==> TryCopy(w, c, src, filter, dir) == DownloadFailed
    ensures o.IOException? ==> o.state == st
    ensures o.Returned? ==> Some(o.ok) == Verdict(TryCopy(w, c, src, filter, dir), IsOptional(c))
    ensures o.state.envAction == st.envAction
    ensures KeepsUsers(st.fingerprints, o.state.fingerprints)
    ensures KeepsSummaryNames(st.summaries, o.state.summaries)
    ensures TryCopy(w, c, src, filter, dir).Copied? ==>
              && o.state.fingerprints == Link(st.fingerprints, src.id, dst, TryCopy(w, c, src, filter, dir).records)
              && o.state.summaries == RecordSummaries(st.summaries, src, dst,
                                        CollectFingerprints(TryCopy(w, c, src, filter, dir).records))
  {
    var a := TryCopy(w, c, src, filter, dir);
    match a
    case NoS3Action => Returned(false, st)
    case NoProfile => Returned(false, st)
    case DownloadFailed => IOException(st)
    case Copied(records) =>
      var fps := CollectFingerprints(records);
      var st' := st.(fingerprints := Link(st.fingerprints, src.id, dst, records),
                     summaries := RecordSummaries(st.summaries, src, dst, fps));
      Returned(Verdict(a, IsOptional(c)).value, st')
  }

  /** How the unit as written ends: as the corrected unit does, or with the
      `ClassCastException` of the record loop, which no handler in the step catches. */
  datatype UnitOutcomeAsWritten = AsCorrected(outcome: UnitOutcome) | ClassCastThrown(state: HostState)

  /**
   * The unit as written, with the record loop of `LinkAsWritten`. It behaves
   * as `PerformUnit` unless the source is not an `AbstractBuild` and some file was
   * downloaded; then it throws, leaving the entry the first record created and no
   * summaries.
   */
  function PerformUnitAsWritten(w: World, c: Config, st: HostState, src: Run, dst: BuildId,
                                filter: string, dir: Path): (o: UnitOutcomeAsWritten)
    ensures var a := TryCopy(w, c, src, filter, dir);
            src.isAbstractBuild || !a.Copied? || a.records == [] ==>
              o == AsCorrected(PerformUnit(w, c, st, src, dst, filter, dir))
    ensures var a := TryCopy(w, c, src, filter, dir);
            !src.isAbstractBuild && a.Copied? && a.records != [] ==>
              && o.ClassCastThrown?
              && o.state == st.(fingerprints := GetOrCreate(st.fingerprints, src.id, a.records[0].name, a.records[0].digest))
  {
    var a := TryCopy(w, c, src, filter, dir);
    match a
    case NoS3Action => AsCorrected(Returned(false, st))
    case NoProfile => AsCorrected(Returned(false, st))
    case DownloadFailed => AsCorrected(IOException(st))
    case Copied(records) =>
      match LinkAsWritten(st.fingerprints, src, dst, records)
      case ClassCastException(fs) => ClassCastThrown(st.(fingerprints := fs))
      case Linked(fs) =>
        var st' := st.(fingerprints := fs,
                       summaries := RecordSummaries(st.summaries, src, dst, CollectFingerprints(records)));
        AsCorrected(Returned(Verdict(a, IsOptional(c)).value, st'))
  }

  /** Every file a unit copied is linked to both the source and the destination build,
      and the destination's summary holds the digest of the last file of each name. */
  lemma CopiedFilesAreLinked(w: World, c: Config, st: HostState, src: Run, dst: BuildId,
                             filter: string, dir: Path)
    requires TryCopy(w, c, src, filter, dir).Copied?
    ensures var recs := TryCopy(w, c, src, filter, dir).records;
            var o := PerformUnit(w, c, st, src, dst, filter, dir);
            && (forall i :: 0 <= i < |recs| ==>
                  Uses(o.state.fingerprints, recs[i].digest, src.id)
                  && Uses(o.state.fingerprints, recs[i].digest, dst))
            && (forall i :: 0 <= i < |recs| && IsLastWithItsName(recs, i) ==>
                  recs[i].name in o.state.summaries[dst]
                  && o.state.summaries[dst][recs[i].name] == recs[i].digest)
  {
    var recs := TryCopy(w, c, src, filter, dir).records;
    var fps := CollectFingerprints(recs);
    var o := PerformUnit(w, c, st, src, dst, filter, dir);
    assert o.state.fingerprints == Link(st.fingerprints, src.id, dst, recs);
    forall i | 0 <= i < |recs|
      ensures Uses(o.state.fingerprints, recs[i].digest, src.id) && Uses(o.state.fingerprints, recs[i].digest, dst)
    {
      assert recs[i].digest in Digests(recs);
    }
    forall i | 0 <= i < |recs| && IsLastWithItsName(recs, i)
      ensures recs[i].name in fps && fps[recs[i].name] == recs[i].digest
    {
      CollectLastWins(recs, i);
    }
  }
}

=== FILE: env_record.dfy ===
/**
 * `EnvAction`: the per-build, in-memory record of which upstream build number each
 * copy step used, exposed to later steps as `COPYARTIFACT_BUILD_NUMBER_<PROJECT>`.
 * Its map is transient, so after the build is reloaded it is null and the action
 * does nothing.
 */
module EnvRecord {
  import opened Wrappers
  import opened JavaStrings

  const KeyPrefix := "COPYARTIFACT_BUILD_NUMBER_"

  /** The project part of a name: everything before the first `/`, when that `/` is
      not the first character; otherwise the whole name. */
  function ProjectPart(name: string): (p: string)
    ensures '/' in name && name[0] != '/' ==> p == name[..IndexOf(name, '/')] && '/' !in p && p != []
    ensures '/' !in name || name[0] == '/' ==> p == name
  {
    var i := IndexOf(name, '/');
    if i > 0 then name[..i] else name
  }

  /** The part of the key after `KeyPrefix`: the upper-cased project part with every
      run of characters outside `A`-`Z` replaced by one `_`. */
  function KeySuffix(name: string): (k: string)
    ensures forall i :: 0 <= i < |k| ==> IsKeyChar(k[i])
    ensures forall i :: 0 <= i < |k| - 1 ==> !(k[i] == '_' && k[i + 1] == '_')
    ensures k == [] <==> name == []
  {
    CollapseNonLetters(ToUpperAscii(ProjectPart(name)))
  }

  /** The variable name recorded for a project name. */
  function EnvKey(name: string): (k: string)
    ensures StartsWith(k, KeyPrefix)
    ensures k[|KeyPrefix|..] == KeySuffix(name)
  {
    assert (KeyPrefix + KeySuffix(name))[..|KeyPrefix|] == KeyPrefix;
    KeyPrefix + KeySuffix(name)
  }

  /** The action's transient map; `None` is the null map of a reloaded build. */
  datatype EnvAction = EnvAction(data: Option<map<string, string>>)

  /**
   * `add(projectName, buildNumber)`: a no-op when the map is null; otherwise the key
   * for the project is set to the canonical decimal numeral of the build number (the
   * only one, by `CanonicalDecimalIsIntToDecimal`, so it is `Integer.toString`'s) and
   * every other entry is kept.
   */
  function Add(e: EnvAction, projectName: string, buildNumber: int): (e': EnvAction)
    ensures e.data.None? ==> e' == e
    ensures e.data.Some? ==> e'.data.Some?
    ensures e.data.Some? ==> e'.data.value.Keys == e.data.value.Keys + {EnvKey(projectName)}
    ensures e.data.Some? ==>
              var v := e'.data.value[EnvKey(projectName)];
              && IsCanonicalDecimal(v) && SignedDecimalValue(v) == buildNumber
              && v == IntToDecimal(buildNumber)
    ensures e.data.Some? ==>
              forall k :: k in e.data.value && k != EnvKey(projectName) ==>
                e'.data.value[k] == e.data.value[k]
  {
    match e.data
    case None => e
    case Some(m) =>
      IntToDecimalRoundTrip(buildNumber);
      EnvAction(Some(m[EnvKey(projectName) := IntToDecimal(buildNumber)]))
  }

  /** `buildEnvVars`: the recorded entries are put into the environment, replacing
      any entry under the same key; a null map contributes nothing. */
  function BuildEnvVars(e: EnvAction, env: map<string, string>): (r: map<string, string>)
    ensures e.data.None? ==> r == env
    ensures e.data.Some? ==> r.Keys == env.Keys + e.data.value.Keys
    ensures e.data.Some? ==> forall k :: k in e.data.value ==> r[k] == e.data.value[k]
    ensures forall k :: k in env && (e.data.None? || k !in e.data.value) ==> r[k] == env[k]
  {
    match e.data
    case None => env
    case Some(m) => env + m
  }

  /** A project name of letters only gets its upper-cased self as the key suffix. */
  lemma {:induction false} LettersOnlyKeySuffix(name: string)
    requires forall i :: 0 <= i < |name| ==> IsUpperLetter(name[i]) || IsLowerLetter(name[i])
    ensures KeySuffix(name) == ToUpperAscii(name)
  {
    assert '/' !in name;
    LettersCollapseToThemselves(ToUpperAscii(name));
  }

  lemma {:induction false} LettersCollapseToThemselves(s: string)
    requires forall i :: 0 <= i < |s| ==> IsUpperLetter(s[i])
    ensures CollapseNonLetters(s) == s
  {
    if s != [] {
      assert IsUpperLetter(s[0]);
      LettersCollapseToThemselves(s[1..]);
      assert s == [s[0]] + s[1..];
    }
  }

  /** All names of the form `p/...` share the key of the bare project `p`. */
  lemma SameProjectSameKey(p: string, filter: string)
    requires p != [] && '/' !in p
    ensures EnvKey(p + "/" + filter) == EnvKey(p)
  {
    IndexOfAfterPrefix(p, filter, '/');
    assert (p + "/" + filter)[..|p|] == p;
  }

  /** A later add for the same project (whatever its filter) overwrites the earlier
      one: the record ends up as if only the later add had happened. */
  lemma LaterAddOverwrites(e: EnvAction, p: string, f1: string, f2: string, n1: int, n2: int)
    requires p != [] && '/' !in p
    ensures Add(Add(e, p + "/" + f1, n1), p + "/" + f2, n2) == Add(e, p, n2)
  {
    SameProjectSameKey(p, f1);
    SameProjectSameKey(p, f2);
    AddSeesOnlyTheKey(e, p + "/" + f1, p, n1);
    AddSeesOnlyTheKey(Add(e, p, n1), p + "/" + f2, p, n2);
    AddTwice(e, p, n1, n2);
  }

  /** Two names with the same key are recorded alike. */
  lemma AddSeesOnlyTheKey(e: EnvAction, a: string, b: string, n: int)
    requires EnvKey(a) == EnvKey(b)
    ensures Add(e, a, n) == Add(e, b, n)
  {
  }

  /** A second add under the same name replaces the first. */
  lemma AddTwice(e: EnvAction, name: string, n1: int, n2: int)
    ensures Add(Add(e, name, n1), name, n2) == Add(e, name, n2)
  {
    if e.data.Some? {
      var m := e.data.value;
      var k := EnvKey(name);
      assert m[k := IntToDecimal(n1)][k := IntToDecimal(n2)] == m[k := IntToDecimal(n2)];
    }
  }
}

=== FILE: fingerprints.dfy ===
/**
 * Fingerprint bookkeeping after a download: the host-wide fingerprint store (one entry
 * per digest, recording which builds used the file), the per-build `FingerprintAction`
 * summaries, and the `name -> digest` map collected from the download records.
 */
module Fingerprints {
  import opened Host

  /** A fingerprint entry. The file name and the original build are fixed when the
      entry is created; `usages` are the builds recorded as using the file. */
  datatype Fingerprint = Fingerprint(fileName: string, original: BuildId, usages: set<BuildId>)

  /** The `FingerprintMap`, keyed by digest. */
  type Store = map<string, Fingerprint>

  /** `map.getOrCreate(src, name, digest)`: an existing entry is returned as it is. */
  function GetOrCreate(store: Store, owner: BuildId, name: string, digest: string): (r: Store)
    ensures r.Keys == store.Keys + {digest}
    ensures digest in store ==> r == store
    ensures digest !in store ==> r[digest] == Fingerprint(name, owner, {})
    ensures forall d :: d in store ==> r[d] == store[d]
  {
    if digest in store then store else store[digest := Fingerprint(name, owner, {})]
  }

  /** `f.add(build)`: records one more user of the entry; adding a user twice is the
      same as adding it once. */
  function AddUsage(store: Store, digest: string, b: BuildId): (r: Store)
    requires digest in store
    ensures r.Keys == store.Keys
    ensures r[digest].usages == store[digest].usages + {b}
    ensures r[digest].fileName == store[digest].fileName
    ensures r[digest].original == store[digest].original
    ensures forall d :: d in store && d != digest ==> r[d] == store[d]
  {
    var f := store[digest];
    store[digest := f.(usages := f.usages + {b})]
  }

  /** The digests among some download records. */
  function Digests(records: seq<FingerprintRecord>): (ds: set<string>)
    ensures ds == set i | 0 <= i < |records| :: records[i].digest
  {
    if records == [] then {}
    else
      var rest := Digests(records[1..]);
      assert forall i :: 1 <= i < |records| ==> records[i] == records[1..][i - 1];
      assert forall i :: 0 <= i < |records| - 1 ==> records[1..][i] == records[i + 1];
      {records[0].digest} + rest
  }

  /** Build `b` is recorded as a user of the entry for digest `d`. */
  predicate Uses(store: Store, d: string, b: BuildId) {
    d in store && b in store[d].usages
  }

  /** Every user recorded in `before` is still recorded in `after`. */
  ghost predicate KeepsUsers(before: Store, after: Store) {
    forall d, b :: Uses(before, d, b) ==> Uses(after, d, b)
  }

  lemma KeepsUsersTransitive(s0: Store, s1: Store, s2: Store)
    requires KeepsUsers(s0, s1) && KeepsUsers(s1, s2)
    ensures KeepsUsers(s0, s2)
  {
  }

  /** One iteration of the record loop: get or create the entry for the record's
      digest and add both builds as its users. */
  function LinkOne(store: Store, src: BuildId, dst: BuildId, rec: FingerprintRecord): (r: Store)
    ensures r.Keys == store.Keys + {rec.digest}
    ensures forall d, b :: Uses(r, d, b) <==> Uses(store, d, b) || (d == rec.digest && (b == src || b == dst))
    ensures forall d :: d in store ==>
              r[d].fileName == store[d].fileName && r[d].original == store[d].original
    ensures rec.digest !in store ==> r[rec.digest].fileName == rec.name && r[rec.digest].original == src
  {
    var s1 := GetOrCreate(store, src, rec.name, rec.digest);
    AddUsage(AddUsage(s1, rec.digest, src), rec.digest, dst)
  }

  /**
   * The loop over the download records (corrected: see `LinkAsWritten`): for every
   * record, the entry for its digest is obtained or created and both the source and
   * the destination build are added as its users. Nothing is ever removed: every entry
   * keeps its users, name and original build, and the users it gains are exactly `src`
   * and `dst`, on exactly the digests of the records.
   */
  function Link(store: Store, src: BuildId, dst: BuildId, records: seq<FingerprintRecord>): (r: Store)
    ensures r.Keys == store.Keys + Digests(records)
    ensures forall d, b :: Uses(r, d, b) <==>
              Uses(store, d, b) || (d in Digests(records) && (b == src || b == dst))
    ensures forall d :: d in store ==>
              r[d].fileName == store[d].fileName && r[d].original == store[d].original
    ensures forall d :: d in r && d !in store ==> r[d].original == src
    decreases |records|
  {
    if records == [] then store
    else
      assert Digests(records) == {records[0].digest} + Digests(records[1..]);
      Link(LinkOne(store, src, dst, records[0]), src, dst, records[1..])
  }

  /** No earlier record has the same digest as record `i`. */
  predicate IsFirstWithItsDigest(records: seq<FingerprintRecord>, i: int)
    requires 0 <= i < |records|
  {
    forall j :: 0 <= j < i ==> records[j].digest != records[i].digest
  }

  /** `getOrCreate` names a new entry after the record that created it: the first
      record with that digest. */
  lemma {:induction false} LinkNamesNewEntries(store: Store, src: BuildId, dst: BuildId,
                                               records: seq<FingerprintRecord>, i: int)
    requires 0 <= i < |records| && IsFirstWithItsDigest(records, i)
    requires records[i].digest !in store
    ensures var r := Link(store, src, dst, records);
            r[records[i].digest] == Fingerprint(records[i].name, src, {src, dst})
    decreases |records|
  {
    var s1 := LinkOne(store, src, dst, records[0]);
    var d := records[i].digest;
    if i == 0 {
      LinkedEntryUsers(s1, src, dst, records[1..], d);
    } else {
      assert records[0].digest != d;
      forall j | 0 <= j < i - 1 ensures records[1..][j].digest != records[1..][i - 1].digest {
        assert records[1..][j] == records[j + 1];
      }
      LinkNamesNewEntries(s1, src, dst, records[1..], i - 1);
    }
  }

  /** An entry that `src` and `dst` already use keeps exactly its users, its name and
      its original build through further linking between the same builds. */
  lemma LinkedEntryUsers(store: Store, src: BuildId, dst: BuildId, records: seq<FingerprintRecord>, d: string)
    requires d in store && store[d].usages == {src, dst}
    ensures Link(store, src, dst, records)[d] == store[d]
  {
    var r := Link(store, src, dst, records);
    assert r[d].usages == {src, dst} by {
      forall b ensures b in r[d].usages <==> b == src || b == dst {
        assert Uses(r, d, b) <==> Uses(store, d, b) || (d in Digests(records) && (b == src || b == dst));
      }
    }
  }

  /** Two stores with the same digests, the same names and original builds, and the
      same users are the same store. */
  lemma SameUsesSameStore(s1: Store, s2: Store)
    requires s1.Keys == s2.Keys
    requires forall d :: d in s1 ==> s1[d].fileName == s2[d].fileName && s1[d].original == s2[d].original
    requires forall d, b :: Uses(s1, d, b) <==> Uses(s2, d, b)
    ensures s1 == s2
  {
    forall d | d in s1 ensures s1[d] == s2[d] {
      assert s1[d].usages == s2[d].usages by {
        forall b ensures b in s1[d].usages <==> b in s2[d].usages {
          assert Uses(s1, d, b) <==> Uses(s2, d, b);
        }
      }
    }
  }

  /** Linking the same records between the same builds a second time changes nothing. */
  lemma LinkIdempotent(store: Store, src: BuildId, dst: BuildId, records: seq<FingerprintRecord>)
    ensures var once := Link(store, src, dst, records);
            Link(once, src, dst, records) == once
  {
    var once := Link(store, src, dst, records);
    SameUsesSameStore(Link(once, src, dst, records), once);
  }

  /** How the copy as written ends: normally, or with the `ClassCastException` of the
      cast `(AbstractBuild)src`, leaving the store as it was at that moment. */
  datatype LinkOutcome = Linked(store: Store) | ClassCastException(store: Store)

  /**
   * The record loop as written: `f.add((AbstractBuild)src)` casts the source
   * run before adding it, so a source that is not an `AbstractBuild` throws as soon
   * as the first record has been looked up. For an `AbstractBuild` it is `Link`.
   */
  function LinkAsWritten(store: Store, src: Run, dst: BuildId, records: seq<FingerprintRecord>): (o: LinkOutcome)
    ensures src.isAbstractBuild ==> o == Linked(Link(store, src.id, dst, records))
    ensures !src.isAbstractBuild && records != [] ==>
              o == ClassCastException(GetOrCreate(store, src.id, records[0].name, records[0].digest))
    ensures records == [] ==> o == Linked(store)
    decreases |records|
  {
    if records == [] then Linked(store)
    else
      var rec := records[0];
      var s1 := GetOrCreate(store, src.id, rec.name, rec.digest);
      if !src.isAbstractBuild then ClassCastException(s1)
      else LinkAsWritten(AddUsage(AddUsage(s1, rec.digest, src.id), rec.digest, dst), src, dst, records[1..])
  }

  /**
   * The discrepancy: a source run that is not an `AbstractBuild` (which the summary
   * loop right after it is written to accept) makes the copy of even one file throw,
   * where the corrected `Link` records both builds as users.
   */
  lemma NonAbstractSourceThrows()
    ensures var src := Run(BuildId("upstream", 7), false, Wrappers.None);
            var dst := BuildId("downstream", 3);
            var recs := [FingerprintRecord("x.zip", "d1")];
            && LinkAsWritten(map[], src, dst, recs).ClassCastException?
            && Link(map[], src.id, dst, recs)["d1"].usages == {src.id, dst}
  {
    var recs := [FingerprintRecord("x.zip", "d1")];
    assert Digests(recs) == {"d1"} by {
      assert recs[0].digest == "d1";
    }
  }

  // ---------------------------------------------------------------------------
  // FingerprintAction summaries

  /** Every build's `FingerprintAction` record, for the builds that have one. */
  type Summaries = map<BuildId, map<string, string>>

  /** Every build that had a summary still has one, under at least the same names. */
  predicate KeepsSummaryNames(before: Summaries, after: Summaries) {
    forall x, n :: x in before && n in before[x] ==> x in after && n in after[x]
  }

  lemma KeepsSummaryNamesTransitive(s0: Summaries, s1: Summaries, s2: Summaries)
    requires KeepsSummaryNames(s0, s1) && KeepsSummaryNames(s1, s2)
    ensures KeepsSummaryNames(s0, s2)
  {
  }

  /**
   * `fa.add(fingerprints)` on an existing action, or a new action holding
   * `fingerprints`: the build ends up with a summary holding the new pairs and every
   * earlier pair under another name; no other build's summary changes.
   */
  function MergeSummary(sums: Summaries, b: BuildId, fingerprints: map<string, string>): (r: Summaries)
    ensures r.Keys == sums.Keys + {b}
    ensures forall x :: x in sums && x != b ==> r[x] == sums[x]
    ensures r[b].Keys == (if b in sums then sums[b].Keys else {}) + fingerprints.Keys
    ensures forall n :: n in fingerprints ==> r[b][n] == fingerprints[n]
    ensures b in sums ==> forall n :: n in sums[b] && n !in fingerprints ==> r[b][n] == sums[b][n]
  {
    if b in sums then sums[b := sums[b] + fingerprints] else sums[b := fingerprints]
  }

  // ---------------------------------------------------------------------------
  // The name -> digest map collected from the records

  function Names(records: seq<FingerprintRecord>): set<string> {
    set i | 0 <= i < |records| :: records[i].name
  }

  /** No later record has the same name as record `i`. */
  predicate IsLastWithItsName(records: seq<FingerprintRecord>, i: int)
    requires 0 <= i < |records|
  {
    forall j :: i < j < |records| ==> records[j].name != records[i].name
  }

  /** The names of some records are the names of all but the last, plus the last's. */
  lemma NamesOfSnoc(records: seq<FingerprintRecord>)
    requires records != []
    ensures Names(records) == Names(records[..|records| - 1]) + {records[|records| - 1].name}
  {
    var init := records[..|records| - 1];
    forall n | n in Names(records) ensures n in Names(init) + {records[|records| - 1].name} {
      var i :| 0 <= i < |records| && records[i].name == n;
      if i < |records| - 1 {
        assert init[i].name == n;
      }
    }
    forall n | n in Names(init) ensures n in Names(records) {
      var i :| 0 <= i < |init| && init[i].name == n;
      assert records[i].name == n;
    }
  }

  /** `fingerprints.put(name, digest)` for every record in order: one key per distinct
      name (which digest each holds is `CollectLastWins`). */
  function CollectFingerprints(records: seq<FingerprintRecord>): (m: map<string, string>)
    ensures m.Keys == Names(records)
  {
    if records == [] then map[]
    else
      NamesOfSnoc(records);
      CollectFingerprints(records[..|records| - 1])[records[|records| - 1].name := records[|records| - 1].digest]
  }

  /** A later `put` overwrites an earlier one: each name holds the digest of the last
      record with that name. */
  lemma {:induction false} CollectLastWins(records: seq<FingerprintRecord>, i: int)
    requires 0 <= i < |records| && IsLastWithItsName(records, i)
    ensures records[i].name in CollectFingerprints(records)
    ensures CollectFingerprints(records)[records[i].name] == records[i].digest
    decreases |records|
  {
    var init := records[..|records| - 1];
    NamesOfSnoc(records);
    if i < |init| {
      assert records[|records| - 1].name != records[i].name;
      forall j | i < j < |init| ensures init[j].name != init[i].name {
        assert records[j].name != records[i].name;
      }
      CollectLastWins(init, i);
    }
  }

  /** At least one distinct name was copied exactly when there was at least one record. */
  lemma CollectedCountPositive(records: seq<FingerprintRecord>)
    ensures |CollectFingerprints(records)| > 0 <==> records != []
  {
    var m := CollectFingerprints(records);
    if records != [] {
      assert records[0].name in m.Keys;
    } else {
      assert m.Keys == {};
    }
  }
}

=== FILE: host.dfy ===
/**
 * The parts of Jenkins the build step reads, as one immutable snapshot. Lookups the
 * step cannot see into (`getItemByFullName`, `ParametersBuildFilter.isValid`, the
 * build-selector strategies, `S3BucketPublisher.getProfile`, `profile.downloadAll`)
 * are fields of the snapshot, so every property below holds for any host.
 */
module Host {
  import opened Wrappers

  /** A build as the fingerprint store names it: the job's full name and the number. */
  datatype BuildId = BuildId(job: string, number: int)

  /** A job; `authenticatedCanRead` is whether the ACL grants `Item.READ` to the
      generic "authenticated" principal. */
  datatype Job = Job(fullName: string, authenticatedCanRead: bool)

  /** `BuildFilter` (match every build) or a `ParametersBuildFilter` over its text. */
  datatype BuildFilter = MatchAll | ParametersFilter(spec: string)

  /** The configured build-selection strategy. Only the default is named here; every
      other strategy is known by its descriptor name. */
  datatype BuildSelector = StatusBuildSelector(stableOnly: bool) | OtherSelector(kind: string)

  /** `DEFAULT_BUILD_SELECTOR`: the last stable build. */
  const DefaultSelector: BuildSelector := StatusBuildSelector(true)

  /** The `S3ArtifactsAction` a build carries when it uploaded artifacts to S3. */
  datatype S3Action = S3Action(profile: string, artifacts: seq<string>)

  /** A `Run`: its identity, whether it is an `AbstractBuild`, and its S3 action. */
  datatype Run = Run(id: BuildId, isAbstractBuild: bool, s3: Option<S3Action>)

  /** One exact run of a matrix build, with its configuration name ("jdk=java6u20"). */
  datatype ConfigRun = ConfigRun(configName: string, run: Run)

  /** What kind of build the selector returned. */
  datatype Variant =
    | Plain
    | MavenAggregate(moduleLastBuilds: seq<Run>)
    | Matrix(exactRuns: seq<ConfigRun>)

  datatype SelectedBuild = SelectedBuild(run: Run, variant: Variant)

  /** One file `downloadAll` copied, with the digest recorded at upload time. */
  datatype FingerprintRecord = FingerprintRecord(name: string, digest: string)

  /** A directory as a list of segments below the workspace root. */
  type Path = seq<string>

  /** What `targetDir.mkdirs()` followed by `profile.downloadAll(...)` produced. */
  datatype Download = Downloaded(records: seq<FingerprintRecord>) | DownloadIOException

  /**
   * The host snapshot one execution sees. `select` receives the strategy, the job and
   * the filter; the environment and the destination build it also reads are fixed for
   * the execution and so are part of the snapshot. `download` receives the source run,
   * the glob filter, the target directory and the flatten flag.
   */
  datatype World = World(
    jobs: map<string, Job>,
    filterValid: (Job, string) -> bool,
    select: (BuildSelector, Job, BuildFilter) -> Option<SelectedBuild>,
    profiles: set<string>,
    download: (Run, string, Path, bool) -> Download)
}

=== FILE: java_strings.dfy ===
/**
 * The few `java.lang.String` / `Integer` operations the build step relies on, written
 * out over `seq<char>`: `indexOf(char)`, `startsWith`, `trim`, `toUpperCase` (ASCII
 * only), `replaceAll("[^A-Z]+", "_")` and `Integer.toString`.
 */
module JavaStrings {

  /** Java's `s.indexOf(c)`: the first position of `c` in `s`, or -1. */
  function IndexOf(s: string, c: char): (r: int)
    ensures -1 <= r < |s|
    ensures r == -1 <==> c !in s
    ensures 0 <= r ==> s[r] == c && c !in s[..r]
  {
    if |s| == 0 then -1
    else if s[0] == c then 0
    else
      var k := IndexOf(s[1..], c);
      if k == -1 then -1
      else
        assert s[..k + 1] == [s[0]] + s[1..][..k];
        k + 1
  }

  /** The first `/` of `p + "/" + q` is the one after `p` when `p` has none of its own. */
  lemma IndexOfAfterPrefix(p: string, q: string, c: char)
    requires c !in p
    ensures IndexOf(p + [c] + q, c) == |p|
  {
    var s := p + [c] + q;
    assert s[..|p|] == p;
    assert s[|p|] == c;
  }

  /** Java's `s.startsWith(p)`. */
  predicate StartsWith(s: string, p: string) {
    |p| <= |s| && s[..|p|] == p
  }

  // ---------------------------------------------------------------------------
  // trim

  /** `String.trim` removes every character whose code is at most U+0020. */
  predicate IsBlank(ch: char) {
    ch <= ' '
  }

  predicate AllBlank(s: string) {
    forall i :: 0 <= i < |s| ==> IsBlank(s[i])
  }

  /** Number of blank characters at the start of `s`. */
  function LeadingBlanks(s: string): (k: nat)
    ensures k <= |s|
    ensures AllBlank(s[..k])
    ensures k < |s| ==> !IsBlank(s[k])
  {
    if |s| == 0 || !IsBlank(s[0]) then 0
    else
      var k := LeadingBlanks(s[1..]);
      assert s[..k + 1] == [s[0]] + s[1..][..k];
      k + 1
  }

  /** Number of blank characters at the end of `s`. */
  function TrailingBlanks(s: string): (k: nat)
    ensures k <= |s|
    ensures AllBlank(s[|s| - k..])
    ensures k < |s| ==> !IsBlank(s[|s| - k - 1])
  {
    if |s| == 0 || !IsBlank(s[|s| - 1]) then 0
    else
      var t := s[..|s| - 1];
      var k := TrailingBlanks(t);
      assert s[|s| - (k + 1)..] == t[|t| - k..] + [s[|s| - 1]];
      k + 1
  }

  /**
   * Java's `s.trim()`: `s` with its blank prefix and blank suffix removed. The result
   * is the middle piece of `s` after the leading blanks, everything after it is blank,
   * and it neither starts nor ends with a blank.
   */
  function Trim(s: string): (r: string)
    ensures |r| <= |s| - LeadingBlanks(s)
    ensures s == s[..LeadingBlanks(s)] + r + s[LeadingBlanks(s) + |r|..]
    ensures AllBlank(s[LeadingBlanks(s) + |r|..])
    ensures r == [] || (!IsBlank(r[0]) && !IsBlank(r[|r| - 1]))
  {
    var lead := LeadingBlanks(s);
    var k := TrailingBlanks(s[lead..]);
    SuffixOfSuffix(s, lead, k);
    SplitInThree(s, lead, |s| - k);
    s[lead..|s| - k]
  }

  /** The last `k` characters of a suffix of `s` are the last `k` of `s`. */
  lemma SuffixOfSuffix(s: string, i: int, k: int)
    requires 0 <= i <= |s| && 0 <= k <= |s| - i
    ensures s[i..][|s| - i - k..] == s[|s| - k..]
    ensures k < |s| - i ==> s[i..][|s| - i - k - 1] == s[|s| - k - 1] && s[i..][0] == s[i]
  {
  }

  lemma SplitInThree(s: string, i: int, j: int)
    requires 0 <= i <= j <= |s|
    ensures s == s[..i] + s[i..j] + s[j..]
  {
  }

  /** `trim()` gives the empty string exactly when every character of `s` is blank. */
  lemma TrimEmptyIffBlank(s: string)
    ensures Trim(s) == [] <==> AllBlank(s)
  {
    var lead := LeadingBlanks(s);
    if lead < |s| {
      var t := s[lead..];
      assert t[0] == s[lead];
    } else {
      assert s[..lead] == s;
    }
  }

  /** Trimming twice is trimming once. */
  lemma TrimIdempotent(s: string)
    ensures Trim(Trim(s)) == Trim(s)
  {
    var r := Trim(s);
    assert LeadingBlanks(r) == 0;
    var t := r[LeadingBlanks(r)..];
    assert t == r;
    assert TrailingBlanks(t) == 0;
  }

  // ---------------------------------------------------------------------------
  // toUpperCase and replaceAll("[^A-Z]+", "_")

  predicate IsUpperLetter(ch: char) {
    'A' <= ch <= 'Z'
  }

  predicate IsLowerLetter(ch: char) {
    'a' <= ch <= 'z'
  }

  /** ASCII upper-casing of one character; every other character is kept. */
  function UpperChar(ch: char): (u: char)
    ensures IsLowerLetter(ch) ==> IsUpperLetter(u) && u as int == ch as int - 32
    ensures !IsLowerLetter(ch) ==> u == ch
  {
    if IsLowerLetter(ch) then (ch as int - 32) as char else ch
  }

  /** `toUpperCase()` on ASCII: each character is upper-cased on its own, and no
      lower-case letter is left. */
  function ToUpperAscii(s: string): (r: string)
    ensures |r| == |s|
    ensures forall i :: 0 <= i < |s| ==> r[i] == UpperChar(s[i])
    ensures forall i :: 0 <= i < |r| ==> !IsLowerLetter(r[i])
  {
    seq(|s|, i requires 0 <= i < |s| => UpperChar(s[i]))
  }

  /** The upper-case letters of `s`, in order: what `[^A-Z]+` leaves alone. */
  function Letters(s: string): string {
    if |s| == 0 then []
    else if IsUpperLetter(s[0]) then [s[0]] + Letters(s[1..])
    else Letters(s[1..])
  }

  /** `s` without its leading run of characters outside `A`-`Z`. */
  function SkipNonLetters(s: string): (r: string)
    ensures |r| <= |s|
    ensures r == s[|s| - |r|..]
    ensures r == [] || IsUpperLetter(r[0])
    ensures Letters(r) == Letters(s)
  {
    if |s| == 0 || IsUpperLetter(s[0]) then s
    else
      var r := SkipNonLetters(s[1..]);
      assert s[1..][|s| - 1 - |r|..] == s[|s| - |r|..];
      r
  }

  /** The characters a key suffix may use: `A`-`Z` and `_`. */
  predicate IsKeyChar(ch: char) {
    IsUpperLetter(ch) || ch == '_'
  }

  /**
   * Java's `s.replaceAll("[^A-Z]+", "_")`: every maximal run of characters outside
   * `A`-`Z` becomes a single `_`. The result uses only `A`-`Z` and `_`, never two `_`
   * in a row, is empty only for the empty string, and starts with `_` exactly when `s`
   * starts with a character outside `A`-`Z`.
   */
  function CollapseNonLetters(s: string): (r: string)
    ensures forall i :: 0 <= i < |r| ==> IsKeyChar(r[i])
    ensures forall i :: 0 <= i < |r| - 1 ==> !(r[i] == '_' && r[i + 1] == '_')
    ensures r == [] <==> s == []
    ensures r != [] ==> (r[0] == '_' <==> !IsUpperLetter(s[0]))
    decreases |s|
  {
    if |s| == 0 then []
    else if IsUpperLetter(s[0]) then [s[0]] + CollapseNonLetters(s[1..])
    else "_" + CollapseNonLetters(SkipNonLetters(s[1..]))
  }

  /** Collapsing keeps every letter of `s`, in order, and adds none. */
  lemma {:induction false} CollapseKeepsLetters(s: string)
    ensures Letters(CollapseNonLetters(s)) == Letters(s)
    decreases |s|
  {
    if |s| == 0 {
    } else if IsUpperLetter(s[0]) {
      var rest := CollapseNonLetters(s[1..]);
      CollapseKeepsLetters(s[1..]);
      assert ([s[0]] + rest)[1..] == rest;
    } else {
      var t := SkipNonLetters(s[1..]);
      var rest := CollapseNonLetters(t);
      CollapseKeepsLetters(t);
      assert ("_" + rest)[1..] == rest;
    }
  }

  /** The result ends with `_` exactly when `s` ends with a character outside `A`-`Z`. */
  lemma {:induction false} CollapseLastChar(s: string)
    requires s != []
    ensures var r := CollapseNonLetters(s);
            r[|r| - 1] == '_' <==> !IsUpperLetter(s[|s| - 1])
    decreases |s|
  {
    var r := CollapseNonLetters(s);
    if IsUpperLetter(s[0]) {
      if |s| > 1 {
        CollapseLastChar(s[1..]);
        assert s[1..][|s| - 2] == s[|s| - 1];
      }
    } else {
      var t := SkipNonLetters(s[1..]);
      if t != [] {
        CollapseLastChar(t);
        assert t[|t| - 1] == s[|s| - 1];
      } else if |s| > 1 {
        NoLettersLeftMeansLastIsNot(s[1..]);
        assert s[1..][|s| - 2] == s[|s| - 1];
      }
    }
  }

  /** When skipping consumes all of `s`, its last character is not a letter. */
  lemma {:induction false} NoLettersLeftMeansLastIsNot(s: string)
    requires s != []
    requires SkipNonLetters(s) == []
    ensures !IsUpperLetter(s[|s| - 1])
  {
    assert !IsUpperLetter(s[0]);
    if |s| > 1 {
      assert SkipNonLetters(s[1..]) == [];
      assert s[1..][|s[1..]| - 1] == s[|s| - 1];
      NoLettersLeftMeansLastIsNot(s[1..]);
    }
  }

  /** A letter-free string collapses to a single `_`: each run becomes one `_`. */
  lemma NonLetterRunCollapses(x: string)
    requires x != []
    requires forall i :: 0 <= i < |x| ==> !IsUpperLetter(x[i])
    ensures CollapseNonLetters(x) == "_"
  {
  }

  lemma TailOfConcat(p: string, q: string)
    requires p != []
    ensures (p + q)[1..] == p[1..] + q
  {
  }

  lemma ConcatAssociates(a: string, b: string, c: string)
    ensures a + (b + c) == (a + b) + c
  {
  }

  /** Skipping stops at the latest at a final letter. */
  lemma SkipKeepsLastLetter(s: string)
    requires s != [] && IsUpperLetter(s[|s| - 1])
    ensures var t := SkipNonLetters(s);
            t != [] && t[|t| - 1] == s[|s| - 1]
  {
    if SkipNonLetters(s) == [] {
      NoLettersLeftMeansLastIsNot(s);
      assert false;
    }
  }

  /** Skipping the leading non-letters of `p + q` stops inside `p` when `p` ends with
      a letter. */
  lemma {:induction false} SkipStopsBeforeSuffix(p: string, q: string)
    requires p != [] && IsUpperLetter(p[|p| - 1])
    ensures SkipNonLetters(p + q) == SkipNonLetters(p) + q
    decreases |p|
  {
    if !IsUpperLetter(p[0]) {
      TailOfConcat(p, q);
      SkipStopsBeforeSuffix(p[1..], q);
    }
  }

  /**
   * `replaceAll` works piece by piece: a string that ends with a letter collapses on
   * its own, and whatever follows it collapses on its own. With
   * `NonLetterRunCollapses` and a single letter, this fixes the result on every input.
   */
  lemma {:induction false} CollapseSplitsAfterLetter(p: string, q: string)
    requires p != [] && IsUpperLetter(p[|p| - 1])
    ensures CollapseNonLetters(p + q) == CollapseNonLetters(p) + CollapseNonLetters(q)
    decreases |p|, 1
  {
    if IsUpperLetter(p[0]) {
      LetterHeadSplits(p, q);
    } else {
      NonLetterHeadSplits(p, q);
    }
  }

  lemma {:induction false} LetterHeadSplits(p: string, q: string)
    requires p != [] && IsUpperLetter(p[|p| - 1]) && IsUpperLetter(p[0])
    ensures CollapseNonLetters(p + q) == CollapseNonLetters(p) + CollapseNonLetters(q)
    decreases |p|, 0
  {
    assert (p + q)[0] == p[0];
    TailOfConcat(p, q);
    if |p| > 1 {
      assert p[1..][|p| - 2] == p[|p| - 1];
      CollapseSplitsAfterLetter(p[1..], q);
    }
  }

  lemma {:induction false} NonLetterHeadSplits(p: string, q: string)
    requires p != [] && IsUpperLetter(p[|p| - 1]) && !IsUpperLetter(p[0])
    ensures CollapseNonLetters(p + q) == CollapseNonLetters(p) + CollapseNonLetters(q)
    decreases |p|, 0
  {
    var t := SkipNonLetters(p[1..]);
    assert p[1..][|p| - 2] == p[|p| - 1];
    SkipKeepsLastLetter(p[1..]);
    calc {
      CollapseNonLetters(p + q);
    == { assert (p + q)[0] == p[0]; }
      "_" + CollapseNonLetters(SkipNonLetters((p + q)[1..]));
    == { TailOfConcat(p, q); SkipStopsBeforeSuffix(p[1..], q); }
      "_" + CollapseNonLetters(t + q);
    == { CollapseSplitsAfterLetter(t, q); }
      "_" + (CollapseNonLetters(t) + CollapseNonLetters(q));
    == { ConcatAssociates("_", CollapseNonLetters(t), CollapseNonLetters(q)); }
      ("_" + CollapseNonLetters(t)) + CollapseNonLetters(q);
    }
  }

  // ---------------------------------------------------------------------------
  // Integer.toString

  predicate IsDigit(ch: char) {
    '0' <= ch <= '9'
  }

  function DigitChar(d: nat): (ch: char)
    requires d < 10
    ensures IsDigit(ch)
  {
    ('0' as int + d) as char
  }

  function DigitValue(ch: char): nat
    requires IsDigit(ch)
  {
    ch as int - '0' as int
  }

  predicate AllDigits(s: string) {
    forall i :: 0 <= i < |s| ==> IsDigit(s[i])
  }

  /** Decimal digits of `n` without leading zeros. */
  function NatToDecimal(n: nat): (r: string)
    ensures |r| > 0 && AllDigits(r)
    ensures r[0] == '0' <==> n == 0
    ensures |r| > 1 ==> r[0] != '0'
  {
    if n < 10 then [DigitChar(n)]
    else NatToDecimal(n / 10) + [DigitChar(n % 10)]
  }

  /** The number a string of decimal digits denotes. */
  function DecimalValue(s: string): nat
    requires AllDigits(s)
  {
    if |s| == 0 then 0
    else DecimalValue(s[..|s| - 1]) * 10 + DigitValue(s[|s| - 1])
  }

  /** Reading the digits back gives the number. */
  lemma {:induction false} NatToDecimalRoundTrip(n: nat)
    ensures DecimalValue(NatToDecimal(n)) == n
  {
    var r := NatToDecimal(n);
    if n < 10 {
      assert r[..|r| - 1] == [];
    } else {
      NatToDecimalRoundTrip(n / 10);
      assert r[..|r| - 1] == NatToDecimal(n / 10);
    }
  }

  /** Java's `Integer.toString(n)`: a `-` sign for negatives, then the digits. */
  function IntToDecimal(n: int): (r: string)
    ensures IsCanonicalDecimal(r)
    ensures n < 0 <==> r[0] == '-'
  {
    if n < 0 then "-" + NatToDecimal(-n) else NatToDecimal(n)
  }

  /** A numeral as `Integer.toString` writes them: an optional `-`, then digits with
      no leading zero, and no `-0`. */
  predicate IsCanonicalDecimal(s: string) {
    && |s| > 0
    && (s[0] == '-' ==> |s| > 1 && AllDigits(s[1..]) && s[1] != '0')
    && (s[0] != '-' ==> AllDigits(s) && (|s| > 1 ==> s[0] != '0'))
  }

  /** The value of an optionally signed decimal numeral. */
  function SignedDecimalValue(s: string): int
    requires |s| > 0
    requires s[0] == '-' ==> AllDigits(s[1..])
    requires s[0] != '-' ==> AllDigits(s)
  {
    if s[0] == '-' then 0 - DecimalValue(s[1..]) as int else DecimalValue(s)
  }

  /** Digits without a leading zero denote a positive number. */
  lemma {:induction false} LeadingDigitPositive(s: string)
    requires s != [] && AllDigits(s) && s[0] != '0'
    ensures DecimalValue(s) > 0
    decreases |s|
  {
    if |s| > 1 {
      LeadingDigitPositive(s[..|s| - 1]);
    }
  }

  lemma LastDigitSplits(a: nat, d: nat)
    requires d < 10
    ensures (a * 10 + d) / 10 == a && (a * 10 + d) % 10 == d
  {
  }

  /** Digits without a leading zero are the digits `NatToDecimal` writes. */
  lemma {:induction false} CanonicalDigitsAreNatToDecimal(s: string)
    requires s != [] && AllDigits(s) && (|s| > 1 ==> s[0] != '0')
    ensures NatToDecimal(DecimalValue(s)) == s
    decreases |s|
  {
    var init := s[..|s| - 1];
    var d := s[|s| - 1];
    if |s| > 1 {
      LeadingDigitPositive(init);
      CanonicalDigitsAreNatToDecimal(init);
      LastDigitSplits(DecimalValue(init), DigitValue(d));
      assert DigitChar(DigitValue(d)) == d;
      assert s == init + [d];
    } else {
      assert DigitChar(DigitValue(d)) == d;
    }
  }

  /** `Integer.toString` is the only canonical numeral of its number. */
  lemma CanonicalDecimalIsIntToDecimal(s: string)
    requires IsCanonicalDecimal(s)
    ensures s == IntToDecimal(SignedDecimalValue(s))
  {
    if s[0] == '-' {
      LeadingDigitPositive(s[1..]);
      CanonicalDigitsAreNatToDecimal(s[1..]);
      assert s == "-" + s[1..];
    } else {
      CanonicalDigitsAreNatToDecimal(s);
    }
  }

  /** `Integer.toString` loses nothing: its numeral reads back as the same number. */
  lemma IntToDecimalRoundTrip(n: int)
    ensures SignedDecimalValue(IntToDecimal(n)) == n
  {
    if n < 0 {
      NatToDecimalRoundTrip(-n);
      assert IntToDecimal(n)[1..] == NatToDecimal(-n);
    } else {
      NatToDecimalRoundTrip(n);
    }
  }
}

=== FILE: job_resolver.dfy ===
/**
 * `JobResolver`: turns a project name into a job and a build filter. A direct lookup
 * of the full name wins; otherwise the name is split at its first `/` (only when that
 * `/` is not the first character) into a job name and a parameter filter, which is
 * accepted only if the filter is valid for that job. There is no fallback to the bare
 * prefix.
 */
module JobResolver {
  import opened Wrappers
  import opened JavaStrings
  import opened Host

  /** The resolver's two fields: the job (null when unresolved) and the filter. */
  datatype Resolution = Resolution(job: Option<Job>, filter: BuildFilter)

  const Unresolved := Resolution(None, MatchAll)

  function Resolve(w: World, name: string): (r: Resolution)
    ensures name in w.jobs ==> r == Resolution(Some(w.jobs[name]), MatchAll)
    ensures r.job.None? ==> r == Unresolved
    ensures r.filter.ParametersFilter? ==>
              && name !in w.jobs
              && r.job.Some?
              && w.filterValid(r.job.value, r.filter.spec)
              && var i := IndexOf(name, '/');
                 && 0 < i && name[..i] in w.jobs
                 && r.job.value == w.jobs[name[..i]] && r.filter.spec == name[i + 1..]
  {
    if name in w.jobs then Resolution(Some(w.jobs[name]), MatchAll)
    else
      var i := IndexOf(name, '/');
      if i > 0 && name[..i] in w.jobs then
        var candidate := w.jobs[name[..i]];
        var spec := name[i + 1..];
        if w.filterValid(candidate, spec) then Resolution(Some(candidate), ParametersFilter(spec))
        else Unresolved
      else Unresolved
  }

  /**
   * A name `p/q` that is not itself a job, where `p` is a non-empty name without `/`,
   * resolves to `p`'s job with the filter `q` exactly when `p` is a job and `q` is a
   * valid filter for it; in every other case it is unresolved.
   */
  lemma ResolveSplitsAtFirstSlash(w: World, p: string, q: string)
    requires p != [] && '/' !in p
    requires p + "/" + q !in w.jobs
    ensures Resolve(w, p + "/" + q) ==
              if p in w.jobs && w.filterValid(w.jobs[p], q)
              then Resolution(Some(w.jobs[p]), ParametersFilter(q))
              else Unresolved
  {
    var name := p + "/" + q;
    IndexOfAfterPrefix(p, q, '/');
    assert name[..|p|] == p;
    assert name[|p| + 1..] == q;
  }

  /**
   * A name that is not a job and has no `/` after its first character never
   * resolves: the split applies only at a first `/` with index > 0.
   */
  lemma ResolveWithoutSplitFails(w: World, name: string)
    requires name !in w.jobs
    requires '/' !in name || name[0] == '/'
    ensures Resolve(w, name) == Unresolved
  {
  }

  /** A job found through the split always carries the parameter filter, never the
      match-all default: there is no fallback to the prefix alone. */
  lemma NoFallbackToPrefix(w: World, name: string)
    requires name !in w.jobs
    requires Resolve(w, name).job.Some?
    ensures Resolve(w, name).filter.ParametersFilter?
  {
  }
}

=== FILE: rename.dfy ===
/**
 * `ListenerImpl.onRenamed`, the string rewrite only: when a job is renamed, a stored
 * project name that is the old name, or the old name followed by `/` and a filter,
 * is rewritten to the new name with the same suffix.
 */
module Rename {
  import opened JavaStrings
  import CopyConfig

  /** Whether a stored project name refers to the job `jobName`. */
  predicate RefersTo(stored: string, jobName: string) {
    stored == jobName || StartsWith(stored, jobName + "/")
  }

  /** The stored project name after `oldName` is renamed to `newName`. */
  function Rewrite(stored: string, oldName: string, newName: string): (r: string)
    ensures !RefersTo(stored, oldName) ==> r == stored
    ensures RefersTo(stored, oldName) ==> RefersTo(r, newName)
    ensures RefersTo(stored, oldName) ==> |r| == |stored| - |oldName| + |newName|
  {
    if stored == oldName then newName
    else if StartsWith(stored, oldName + "/") then newName + stored[|oldName|..]
    else stored
  }

  /** `A/x` becomes `B/x`: the filter suffix is carried over unchanged. */
  lemma RewriteKeepsSuffix(oldName: string, newName: string, suffix: string)
    ensures Rewrite(oldName + "/" + suffix, oldName, newName) == newName + "/" + suffix
  {
    var stored := oldName + "/" + suffix;
    assert stored[..|oldName + "/"|] == oldName + "/";
    assert stored[|oldName|..] == "/" + suffix;
  }

  /**
   * A name that only starts with the old name as a string, such as `AA/x` for the
   * old name `A`, is not touched.
   */
  lemma RewriteIgnoresLongerNames(oldName: string, newName: string, rest: string)
    requires rest != [] && rest[0] != '/'
    ensures Rewrite(oldName + rest, oldName, newName) == oldName + rest
  {
    var stored := oldName + rest;
    assert stored[|oldName|] == rest[0];
  }

  /** Renaming back undoes a rename, for every name that referred to the old job or
      did not refer to the new one. */
  lemma RewriteRoundTrip(stored: string, oldName: string, newName: string)
    requires RefersTo(stored, oldName) || !RefersTo(stored, newName)
    ensures Rewrite(Rewrite(stored, oldName, newName), newName, oldName) == stored
  {
    if stored != oldName && StartsWith(stored, oldName + "/") {
      var r := newName + stored[|oldName|..];
      assert stored[..|oldName| + 1] == oldName + "/";
      assert stored[|oldName|] == '/';
      assert r[..|newName| + 1] == newName + "/";
      assert r[|newName|..] == stored[|oldName|..];
      assert stored == oldName + stored[|oldName|..];
    }
  }

  /** The listener's effect on one build step: only the project name changes. */
  function OnRenamed(c: CopyConfig.Config, oldName: string, newName: string): (c': CopyConfig.Config)
    ensures c'.projectName == Rewrite(c.projectName, oldName, newName)
    ensures c' == c.(projectName := c'.projectName)
  {
    c.(projectName := Rewrite(c.projectName, oldName, newName))
  }

  /** Renaming a job and renaming it back restores a stored build step, unless its
      name referred to the new job without referring to the old one. */
  lemma OnRenamedRoundTrip(c: CopyConfig.Config, oldName: string, newName: string)
    requires RefersTo(c.projectName, oldName) || !RefersTo(c.projectName, newName)
    ensures OnRenamed(OnRenamed(c, oldName, newName), newName, oldName) == c
  {
    RewriteRoundTrip(c.projectName, oldName, newName);
  }

  /** A rename of a job a step does not refer to leaves the step as it is. */
  lemma OnRenamedOtherJob(c: CopyConfig.Config, oldName: string, newName: string)
    requires !RefersTo(c.projectName, oldName)
    ensures OnRenamed(c, oldName, newName) == c
  {
  }
}

=== FILE: wrappers.dfy ===
/** The optional-value datatype the model uses wherever the source has a nullable reference. */
module Wrappers {

  /** `None` stands for Java's `null`. */
  datatype Option<+T> = None | Some(value: T) {

    /** The wrapped value, or `default` when there is none. */
    function GetOr(default: T): T {
      match this
      case Some(v) => v
      case None => default
    }
  }
}
